=== FILE: README.md ===
# CasaHaven user core — a Dafny model

A model of the parts of the CasaHaven rental marketplace that make decisions rather than move data:

- the **user schema** (`backend/model/user.js`): required fields, the email setters and email-shape
  pattern, the password minimum length, the role enum with its `guest` default, the sub-profile
  defaults, the pre-save hashing hook, `comparePassword`, and `select: false` on the password;
- the **user controller** (`backend/controllers/userController.js`): `register`, `getAllUsers`,
  `getUserById` and `updateUser` over a store that maps ObjectIds to records, with MongoDB's unique
  indexes on `_id` and `email`;
- the **route guards** of the single-page app (`frontend/casaHaven/src/App.jsx`): `PrivateRoute`,
  `PublicRoute` and the role lists of the route table;
- the **home page's decisions** (`frontend/casaHaven/src/components/Home.jsx`): the "become a host"
  handler as a trace of effects, the host button's caption, and the banner and tagline rotations;
- the API server's **final error handler** (`backend/server.js`) as a classifier from an error to a
  status and JSON body.

Modules: `Common` (optional values, results, instants, JavaScript `||` on strings), `Text` (`trim`
and `lowercase`), `EmailShape` (the email regex, twice, with a proof they agree), `UserSchema`,
`UserStore`, `UserController`, `RouteGuards`, `HomePage`, `ErrorHandler`.

Modelling choices:

- bcrypt is the constructor `Hashed` of the `Password` datatype: an abstract injective function,
  so `Hashed(Hashed(p))` (a double hash) is distinguishable from `Hashed(p)`. `comparePassword`
  succeeds only against `Hashed(Plain(candidate))`; a password stored as `Plain` text never compares.
- The clock (`new Date()`, the timestamps) and the generated ObjectId are parameters of `Register`
  and `UpdateUser`. The result of the auth context's `becomeHost()` call is a parameter of
  `HandleBecomeHost`.
- Register stores the projection of the controller's object onto the schema. Mongoose's strict mode
  drops `hostDetails.totalReviews` and `guestDetails.isGuest`, because neither is a schema path.
  `RegisterGuestBranchInvisible` shows the consequence: the controller's guest branch changes nothing
  observable, and `role: "guest"` behaves exactly like an absent role.
- `findOne({ email })` runs the email setters on the query, so the duplicate check compares
  normalised emails. An absent email matches no record.
- Update order, as Mongoose runs it: cast the id, run the update validators on the paths the body
  sets (`runValidators: true`), look the record up (404), then write under the unique email index.
  An update body is a set of plain top-level paths. A nested `hostDetails` or `guestDetails` object
  in it replaces that sub-profile.
  Its missing keys read back as the schema's defaults.

Three behaviours a reader might not expect, which the model follows:

- A malformed id is a CastError thrown inside the controller's `try`. It is answered with 500, not 400.
- A validation failure during register is answered with 500, not 400.
- `updateUser` goes through `findByIdAndUpdate`, which never runs the `pre('save')` hook. A password
  set by an update is stored as plain text and is not re-hashed (`UpdatedPasswordIsNotHashed`).
  From then on `comparePassword` fails for every candidate.

## Model

| member | source | states |
|---|---|---|
| Text.Trim | backend/model/user.js:8 | the result has no JavaScript whitespace at either end, is a contiguous slice of the input with only whitespace cut off before and after it, and an already trimmed string is unchanged |
| Text.TrimUnique | backend/model/user.js:8 | only one trimmed slice of a string has nothing but whitespace around it, so the contract of `trim` determines its result |
| Text.Utf16Length | backend/model/user.js:21 | JavaScript's `.length` lies between the number of code points and twice that, equals it when no code point is above U+FFFF, and is 1 for one character up to U+FFFF and 2 for one above |
| Text.Utf16LengthAppend | backend/model/user.js:21 | `.length` of a concatenation is the sum of the two lengths, so with the one-character values it is the code-unit count of every string |
| Text.TrimIdempotent | backend/model/user.js:14 | trimming a trimmed value again changes nothing |
| EmailShape.ValidIffPattern | backend/model/user.js:16 | the direct email test accepts a string exactly when the anchored regex matches it (local part, '@', domain split as the regex splits it) |
| EmailShape.DomainIffDirect | backend/model/user.js:16 | the domain half `\w+([.-]?\w+)*(\.\w{2,3})+` matches exactly the dotted strings that end in a dot and 2–3 word characters |
| EmailShape.JoinTld | backend/model/user.js:16 | a dotted prefix followed by `(\.\w{2,3})+` groups is dotted and ends in a TLD group |
| UserSchema.ParseRole | backend/model/user.js:24-28 | a string passes the enum exactly when it names guest, host or admin, and the role parsed names that string |
| UserSchema.NormalizeEmail | backend/model/user.js:14-15 | a stored email is trimmed, has the trimmed input's length and contains no upper-case ASCII letter; an input already trimmed and free of capitals is stored unchanged |
| UserSchema.NormalizeEmailLowersTrim | backend/model/user.js:14-15 | each character of the stored email is the lower-cased character at the same position of the trimmed input |
| UserSchema.NormalizeEmailIdempotent | backend/model/user.js:14-15 | normalising a normalised email changes nothing |
| UserSchema.ApplySetters | backend/model/user.js:5-35 | casting trims a present name and phone, normalises a present email, keeps absent paths absent, and leaves password, role, picture, isVerified and sub-profiles as given |
| UserSchema.Validate | backend/model/user.js:4-28 | no violation exactly when name, email and password are set, the email has the right shape, the password is at least 6 UTF-16 code units long and the role is in the enum; a missing name, email or password, a non-empty password shorter than 6 code units, a bad email or an unknown role each produce their violation |
| UserSchema.ValidateUpdate | backend/controllers/userController.js:108-111 | the update validators pass exactly when every path the body sets meets its rule; a body that sets none of the validated paths passes |
| UserSchema.HostFromInput | backend/model/user.js:40-54 | each supplied hostDetails key is kept; `isHost` defaults to false, `totalListings` and `averageRating` to 0, and an absent `hostSince` stays absent, with or without a hostDetails object |
| UserSchema.GuestFromInput | backend/model/user.js:55-64 | each supplied guestDetails key is kept; `totalBookings` defaults to 0 and `wishlist` to empty, with or without a guestDetails object |
| UserSchema.NewUser | backend/model/user.js:24-39 | a new record has the given name, email and plain password; an absent role becomes guest; `isVerified` is true only when the caller said so; phone and picture are kept; the sub-profiles are the caller's objects with the schema defaults filled in; both timestamps are the creation time |
| UserSchema.NewUserDefaults | backend/model/user.js:36-63 | with no sub-profile input: isVerified false, isHost false, totalListings 0, averageRating 0, totalBookings 0, empty wishlist |
| UserSchema.PreSave | backend/model/user.js:70-74 | the hook hashes the password exactly when it is marked modified and leaves it as it is otherwise; nothing else changes, the modified flag included |
| UserSchema.AstralPasswordMeetsMinLength | backend/model/user.js:21 | an illustration of the general rule: three characters above U+FFFF count as six code units, so such a password passes `minlength: 6` |
| UserSchema.Save | backend/model/user.js:70-74 | after a save nothing counts as modified and only the password may have changed |
| UserSchema.SaveUnmodifiedKeepsPassword | backend/model/user.js:71 | a save with the password unmodified stores the record byte-for-byte |
| UserSchema.NoDoubleHashing | backend/model/user.js:70-73 | saving a saved document again changes nothing, so a password is never hashed twice |
| UserSchema.ComparePasswordAfterSave | backend/model/user.js:72-79 | a password saved from plaintext p compares equal to p and to no other candidate |
| UserSchema.PlainNeverCompares | backend/model/user.js:77-79 | a password stored unhashed never compares equal to any candidate |
| UserSchema.View | backend/model/user.js:22 | the query projection keeps id, name, email and role |
| UserSchema.ViewForgetsOnlyPassword | backend/model/user.js:22 | the view loses exactly the password: the record is recovered from the view and its password, and changing the password cannot change the view |
| UserSchema.SavedNewUserOk | backend/model/user.js:4-74 | what `new User(data).save()` stores from a conforming body meets every schema rule, with the password hashed |
| UserStore.Insert | backend/model/user.js:13 | an insert succeeds exactly when both the id and the email are new, and then adds that one record |
| UserStore.Replace | backend/model/user.js:13 | an in-place write succeeds exactly when no other record holds the new email |
| UserStore.InsertPreservesValid | backend/model/user.js:12-16 | an accepted insert of a well-formed record keeps emails unique and records well-formed, and grows the store by one |
| UserStore.ReplacePreservesValid | backend/model/user.js:12-16 | an accepted replacement of a well-formed record keeps the store valid |
| UserStore.PutKeepsUniqueEmails | backend/model/user.js:13 | writing an email no other record holds keeps the email index unique |
| UserStore.CastId | backend/controllers/userController.js:92 | an id casts exactly when it is 24 hex digits, to its lower-case form |
| UserStore.CastCanonicalId | backend/controllers/userController.js:92 | a canonical ObjectId casts to itself |
| UserController.UserData | backend/controllers/userController.js:25-54 | the controller's object is the body with hostDetails overlaid on the host defaults for role "host", guestDetails overlaid on `{isGuest: true}` for role "guest", and untouched otherwise |
| UserController.Register | backend/controllers/userController.js:4-74 | 400 "User already exists" with the store unchanged exactly when the normalised email is taken; 201 exactly when the email is free, the body validates and the id is new, and then exactly one record is added, with a normalised email and a hashed password, and the response carries its password-free view; every other failure is 500 "Error registering user" with the store unchanged |
| UserController.RegisteredRecord | backend/controllers/userController.js:57-58 | a successful register stores exactly the record `new User` builds from the cast body, with its password hashed |
| UserController.RegisterNeverHitsEmailIndex | backend/controllers/userController.js:19-22 | after the duplicate check, register never trips the unique email index |
| UserController.RegisterPreservesValid | backend/controllers/userController.js:19-58 | register keeps emails unique and records well-formed, and a success grows the store by one |
| UserController.RegisteredPasswordCompares | backend/controllers/userController.js:57-58 | a registered user's password compares equal to the submitted plaintext and nothing else |
| UserController.RegisterTwiceConflicts | backend/controllers/userController.js:19-22 | after a successful register, registering the same normalised email again gets 400 and leaves the store unchanged |
| UserController.RegisterHostDefaults | backend/controllers/userController.js:38-46 | role "host" without hostDetails stores isHost true, hostSince now, 0 listings and rating 0 |
| UserController.RegisterHostCallerWins | backend/controllers/userController.js:38-46 | for role "host", every schema key the caller supplies in hostDetails wins over the synthesised default, isHost included |
| UserController.StoredHostDetails | backend/controllers/userController.js:38-46 | the schema keeps each hostDetails key the caller gives and fills the rest from the synthesised host defaults; totalReviews is dropped |
| UserController.RegisterGuestBranchInvisible | backend/controllers/userController.js:49-54 | register with role "guest" has exactly the same outcome as with no role, because `isGuest` is not a schema path |
| UserController.RegisterGuestKeepsCallerFields | backend/controllers/userController.js:49-54 | role "guest" stores the caller's totalBookings and wishlist, with 0 and empty as defaults |
| UserController.StoredGuestDetails | backend/controllers/userController.js:49-54 | spreading `isGuest: true` under the caller's guestDetails stores the same sub-profile as the caller's object alone |
| UserController.RegisterOtherRolePassesThrough | backend/controllers/userController.js:25-35 | for any other role the caller's sub-profiles are stored as given; an absent role is stored as guest and the only other accepted role is admin |
| UserController.GetAllUsers | backend/controllers/userController.js:77-87 | 200 with one password-free view per stored record, each exactly once, and nothing else |
| UserController.GetUserById | backend/controllers/userController.js:90-103 | a malformed id is 500 "Error fetching user"; a well-formed absent id is 404 "User not found"; otherwise 200 with the record's password-free view |
| UserController.ApplyPatch | backend/controllers/userController.js:108-111 | each path the body sets replaces the stored one and every path it leaves out keeps its stored value (role, picture, isVerified and sub-profiles included); the role is the one the body names; the password is written as given, unhashed; createdAt is kept and updatedAt becomes now |
| UserController.EmptyPatchTouchesOnlyTimestamp | backend/model/user.js:65-67 | an update that sets no path changes nothing but updatedAt |
| UserController.UpdateUser | backend/controllers/userController.js:106-127 | a malformed id is 500; 404 exactly when the id casts, the body passes the update validators and no record has that id; 200 exactly when the id casts, the body passes the validators, the record exists and no other record holds the patched email; on 200 only the target record is replaced, by the patched record, and the response carries its password-free view; every non-200 leaves the store unchanged |
| UserController.UpdateTouchesOnlyTarget | backend/controllers/userController.js:108-111 | records other than the target are unchanged and the set of ids is the same |
| UserController.UpdatedPasswordIsNotHashed | backend/controllers/userController.js:108-111 | a password set by an update is stored as plain text, so comparePassword then fails for every candidate |
| UserController.UpdateWithoutPasswordKeepsHash | backend/controllers/userController.js:108-111 | an update that does not set the password keeps the stored hash identical |
| UserController.UpdateToTakenEmailFails | backend/controllers/userController.js:108-126 | giving a record another record's email is refused by the unique index and answered with 500 |
| UserController.PatchedRecordOk | backend/controllers/userController.js:108-111 | patching a well-formed record with validated values keeps it well-formed |
| UserController.UpdatePreservesValid | backend/controllers/userController.js:106-127 | update keeps emails unique and records well-formed |
| UserController.RegisterThenFetch | backend/controllers/userController.js:90-96 | a user registered under a canonical id is fetched back with 200, the trimmed name and the normalised email |
| RouteGuards.PrivateRoute | frontend/casaHaven/src/App.jsx:35-55 | while loading it shows the placeholder whatever the user and roles; with no user it redirects to /login; it renders exactly for a loaded user whose role is listed, or any loaded user when the list is empty; it redirects to /unauthorized exactly otherwise |
| RouteGuards.PublicRoute | frontend/casaHaven/src/App.jsx:58-61 | it redirects to / exactly when a user is present and renders otherwise, without consulting loading |
| RouteGuards.HostPagesAreUnderHost | frontend/casaHaven/src/App.jsx:146-170 | the pages whose route-table guard is `PrivateRoute` with roles host and admin are exactly the routes whose path starts with /host/, and they are the three host pages |
| RouteGuards.HostPagesRenderIff | frontend/casaHaven/src/App.jsx:146-170 | the three /host/ pages render exactly for a loaded host or admin |
| RouteGuards.GuestNeverRendersHostPages | frontend/casaHaven/src/App.jsx:146-170 | a guest never renders a /host/ page, and once loaded is sent to /unauthorized |
| RouteGuards.AdminDashboardRenderIff | frontend/casaHaven/src/App.jsx:172-180 | the admin dashboard renders exactly for a loaded admin |
| RouteGuards.PrivatePagesNeedUser | frontend/casaHaven/src/App.jsx:102-188 | a private page renders only for a loaded user, and shows the placeholder while loading instead of redirecting |
| RouteGuards.UnrestrictedPagesRenderForAnyUser | frontend/casaHaven/src/App.jsx:102-144 | a private page with no role list renders for any loaded user |
| RouteGuards.PublicOnlyPagesIgnoreLoading | frontend/casaHaven/src/App.jsx:80-100 | login and register ignore the loading flag and show their form exactly to anonymous visitors |
| HomePage.HandleBecomeHost | frontend/casaHaven/src/components/Home.jsx:44-85 | an anonymous visitor is sent to /register; a host goes to /host/dashboard; any other signed-in role does nothing; becomeHost is called exactly for a signed-in guest |
| HomePage.Settle | frontend/casaHaven/src/components/Home.jsx:60-80 | a success shows the backend's message or "Welcome to hosting! You can now add your first property.", then hides the toast and goes to /host/dashboard after 3000 ms; a failed result alerts the backend's error or "Failed to become a host. Please try again."; a thrown error alerts that default; nothing navigates at once or touches the busy flag |
| HomePage.BusyFlagDiscipline | frontend/casaHaven/src/components/Home.jsx:57-83 | the busy flag is on whenever becomeHost is called and off after the handler, on every path |
| HomePage.GuestSuccessToastsThenRedirects | frontend/casaHaven/src/components/Home.jsx:57-74 | a guest's successful upgrade shows the backend's message, or the default welcome, then hides the toast and navigates to /host/dashboard after 3000 ms |
| HomePage.GuestFailureAlertsOnly | frontend/casaHaven/src/components/Home.jsx:75-80 | a failed result alerts the backend's error or the default failure text, a thrown error alerts the default text, and neither navigates or toasts |
| HomePage.HostButtonLabel | frontend/casaHaven/src/components/Home.jsx:375-412 | while busy the caption is "Becoming Host..." for a guest and "Loading..." otherwise; when idle it is "Host Dashboard" exactly for a signed-in host and "Become a Host" otherwise |
| HomePage.LabelMatchesAction | frontend/casaHaven/src/components/Home.jsx:405-412 | the idle caption reads "Host Dashboard" exactly when a click navigates straight to the dashboard |
| HomePage.Next | frontend/casaHaven/src/components/Home.jsx:32 | one tick stays inside the array, advancing by one and wrapping to 0 at the end |
| HomePage.AfterTicksIsModular | frontend/casaHaven/src/components/Home.jsx:30-42 | after n ticks from 0 the index is n modulo the array's length |
| HomePage.RotationsInBounds | frontend/casaHaven/src/components/Home.jsx:27-42 | the banner index stays below 5 and the tagline index below 4 forever |
| ErrorHandler.HandleError | backend/server.js:122-147 | ValidationError is 400 "Validation failed" with the nested messages in order; CastError is 400 "Invalid ID format"; the two token errors are 401; anything else gets its non-zero status or 500 and its message or "Internal server error"; success is always false; errors only for ValidationError; the stack only for unnamed errors in development |
| ErrorHandler.StatusOrDefault | backend/server.js:142 | a present non-zero status is kept, otherwise 500 |
| ErrorHandler.NoStackOutsideDevelopment | backend/server.js:145 | no reply carries a stack trace unless NODE_ENV is development |
| ErrorHandler.StatusClassification | backend/server.js:125-142 | named errors get 400 or 401; an unnamed error without a status gets 500 |
| ErrorHandler.ValidationErrorsListed | backend/server.js:125-128 | a validation reply lists one message per nested error, in order |

## Left out

- `deleteUser`: `backend/routes/userRoutes.js` imports and mounts it, but the controller neither defines nor exports it, so there is no delete behaviour to model.
- Database and network failures (the `catch` blocks reached by I/O errors, e.g. the 500 of `getAllUsers`): the store is a pure map and cannot fail, so only the failures the logic itself raises (validation, casting, unique indexes) reach those blocks.
- Concurrent requests: the model is sequential, so two racing registers of one email are not modelled. The unique email index still refuses the second write.
- bcrypt's salt, cost factor and timing: `Hashed` is an abstract injective function. A plain-text password that happens to look like a bcrypt hash is not modelled.
- Exact error strings: Mongoose's validation and duplicate-key messages are a `Failure` value, not text.
- Text.Lower: `toLowerCase` is modelled on ASCII capitals only, because full Unicode case mapping is out of scope. Non-ASCII letters are left unchanged.
- UserController.UpdateUser: an update body is modelled as plain top-level paths only. `findByIdAndUpdate` also accepts dotted paths such as `"hostDetails.isHost"`, which set one key and keep the rest of the sub-profile, and update operators such as `$unset` and `$inc`. Neither is modelled, because the body type carries one optional value per schema path and nothing else.
- Casting of body values: every present value is taken to have its schema type. `null`, values that fail to cast, and wishlist entries that are not ObjectIds are not modelled.
- UserStore.CastId: only the 24-hex-digit ObjectId form is accepted; the legacy 12-byte string form is not modelled.
- One clock reading serves both `hostSince` and the timestamps, although the source reads the clock more than once.
- UserController.GetAllUsers: does not state the order of the list (MongoDB's natural order), because the store is a map with no insertion order.
- The rest of `backend/server.js`: security middleware, CORS, rate limiting, sessions, passport, the database connection, static uploads, listening, shutdown and process signals. These are configuration and I/O.
- The auth context's `becomeHost` and session resolution are not part of this model; their results are inputs.
- Home.jsx rendering, the DOM auto-scroll effect, and the interval timers. `HideToastThenNavigate` stands for the 3-second timeout as one deferred effect.
- App.jsx's JSX rendering and path matching: the route table is a `Page` datatype.
- `tailwind.config.js`: styling configuration.

=== FILE: common.dfy ===
/** Small value types shared by every module of the model. */
module Common {

  /** A JavaScript value that may be `undefined` (an absent key of a JSON body). */
  datatype Option<+T> = None | Some(value: T) {

    /** The value, or `default` when absent (a schema default applied to an undefined path). */
    function GetOr(default: T): T {
      match this
      case Some(v) => v
      case None => default
    }
  }

  /** The outcome of a store or validation step: a value or the error that was thrown. */
  datatype Result<+T, +E> = Ok(value: T) | Err(error: E)

  /** A JavaScript `Date`: an instant, only ever copied, never inspected. */
  datatype Instant = Instant(millis: int)

  /** JavaScript's `s || fallback` for an optional string: absent and empty strings are falsy. */
  function OrElse(s: Option<string>, fallback: string): (r: string)
    ensures r == fallback || (s.Some? && r == s.value && r != "")
    ensures s.Some? && s.value != "" ==> r == s.value
  {
    if s.Some? && s.value != "" then s.value else fallback
  }
}

=== FILE: email_shape.dfy ===
/**
 * The email-shape check of the user schema: the pattern
 *   ^\w+([.-]?\w+)*@\w+([.-]?\w+)*(\.\w{2,3})+$
 * defined once by its regular-expression structure (`Pattern`) and once as a
 * direct test (`IsValid`), with a proof that the two agree on every string.
 */
module EmailShape {

  /** `\w` without the `u` flag. */
  predicate IsWordChar(c: char) {
    ('a' <= c <= 'z') || ('A' <= c <= 'Z') || ('0' <= c <= '9') || c == '_'
  }

  /** `[.-]` */
  predicate IsSep(c: char) {
    c == '.' || c == '-'
  }

  /** Every character of `s` is a word character. */
  predicate AllWord(s: string) {
    forall i | 0 <= i < |s| :: IsWordChar(s[i])
  }

  /**
   * The language of `\w+([.-]?\w+)*`: runs of word characters joined by single
   * separators, beginning and ending with a word character.
   */
  predicate Dotted(s: string) {
    && |s| > 0 && IsWordChar(s[0]) && IsWordChar(s[|s| - 1])
    && (forall i | 0 <= i < |s| :: IsWordChar(s[i]) || IsSep(s[i]))
    && (forall i | 0 <= i < |s| - 1 :: IsWordChar(s[i]) || IsWordChar(s[i + 1]))
  }

  /** The language of `(\.\w{2,3})+`, one group at a time. */
  predicate TldGroups(s: string)
    decreases |s|
  {
    && |s| >= 3 && s[0] == '.'
    && (|| (AllWord(s[1..3]) && (|s| == 3 || TldGroups(s[3..])))
        || (|s| >= 4 && AllWord(s[1..4]) && (|s| == 4 || TldGroups(s[4..]))))
  }

  /** The domain half `\w+([.-]?\w+)*(\.\w{2,3})+`, as the regular expression splits it. */
  ghost predicate DomainPattern(d: string) {
    exists k | 0 < k < |d| :: Dotted(d[..k]) && TldGroups(d[k..])
  }

  /** The whole anchored pattern. */
  ghost predicate Pattern(s: string) {
    exists i | 0 <= i < |s| :: s[i] == '@' && Dotted(s[..i]) && DomainPattern(s[i + 1..])
  }

  /** The string ends in a dot followed by two or three word characters. */
  predicate EndsWithTld(d: string) {
    || (|d| >= 3 && d[|d| - 3] == '.' && AllWord(d[|d| - 2..]))
    || (|d| >= 4 && d[|d| - 4] == '.' && AllWord(d[|d| - 3..]))
  }

  /** Index of the first '@' in `s`, or `|s|` when there is none. */
  function IndexOfAt(s: string): (i: nat)
    ensures i <= |s|
    ensures i < |s| ==> s[i] == '@'
    ensures forall j | 0 <= j < i :: s[j] != '@'
  {
    if |s| == 0 then 0
    else if s[0] == '@' then 0
    else 1 + IndexOfAt(s[1..])
  }

  /** The direct test: a dotted local part, a first '@', and a dotted domain ending in a TLD. */
  predicate IsValid(s: string) {
    var i := IndexOfAt(s);
    i < |s| && Dotted(s[..i]) && Dotted(s[i + 1..]) && EndsWithTld(s[i + 1..])
  }

  /** Appending one `\.\w{2,3}` group to a dotted string keeps it dotted. */
  lemma DottedExtend(a: string, g: string)
    requires Dotted(a)
    requires |g| >= 2 && g[0] == '.' && AllWord(g[1..])
    ensures Dotted(a + g)
  {
    var s := a + g;
    forall i | 0 <= i < |s|
      ensures IsWordChar(s[i]) || IsSep(s[i])
    {
      if i >= |a| && i > |a| {
        assert s[i] == g[1..][i - |a| - 1];
      }
    }
    forall i | 0 <= i < |s| - 1
      ensures IsWordChar(s[i]) || IsWordChar(s[i + 1])
    {
      if i + 1 > |a| {
        assert s[i + 1] == g[1..][i - |a|];
      }
    }
    assert s[|s| - 1] == g[1..][|g| - 2];
  }

  /** A dotted prefix followed by TLD groups is dotted and ends with a TLD. */
  lemma {:induction false} JoinTld(a: string, t: string)
    requires Dotted(a) && TldGroups(t)
    ensures Dotted(a + t) && EndsWithTld(a + t)
    decreases |t|
  {
    var n := if AllWord(t[1..3]) && (|t| == 3 || TldGroups(t[3..])) then 3 else 4;
    var g, rest := t[..n], t[n..];
    assert t == g + rest;
    assert g[1..] == t[1..n];
    DottedExtend(a, g);
    if rest == [] {
      assert a + t == a + g;
      var s := a + g;
      if n == 3 {
        assert s[|s| - 2..] == t[1..3];
      } else {
        assert s[|s| - 3..] == t[1..4];
      }
    } else {
      assert a + t == (a + g) + rest;
      JoinTld(a + g, rest);
    }
  }

  /** A split found by the regular expression passes the direct test. */
  lemma DomainToDirect(d: string)
    requires DomainPattern(d)
    ensures Dotted(d) && EndsWithTld(d)
  {
    var k :| 0 < k < |d| && Dotted(d[..k]) && TldGroups(d[k..]);
    assert d == d[..k] + d[k..];
    JoinTld(d[..k], d[k..]);
  }

  /** Cutting a dotted string just before a separator leaves a dotted prefix. */
  lemma DottedBeforeSep(d: string, k: int)
    requires Dotted(d) && 0 < k < |d| && IsSep(d[k])
    ensures Dotted(d[..k])
  {
    assert IsWordChar(d[k - 1]);
    assert d[..k][k - 1] == d[k - 1];
  }

  /** A string that passes the direct test splits before its last group. */
  lemma DirectToDomain(d: string)
    requires Dotted(d) && EndsWithTld(d)
    ensures DomainPattern(d)
  {
    var k := if |d| >= 3 && d[|d| - 3] == '.' && AllWord(d[|d| - 2..]) then |d| - 3 else |d| - 4;
    assert d[k] == '.' && k > 0;
    DottedBeforeSep(d, k);
    var post := d[k..];
    assert post[1..] == d[k + 1..];
    assert TldGroups(post);
  }

  /** The domain half: the regex split exists exactly when the direct test passes. */
  lemma DomainIffDirect(d: string)
    ensures DomainPattern(d) <==> Dotted(d) && EndsWithTld(d)
  {
    if DomainPattern(d) {
      DomainToDirect(d);
    }
    if Dotted(d) && EndsWithTld(d) {
      DirectToDomain(d);
    }
  }

  /** A dotted local part holds no '@', so an '@' right after it is the first one. */
  lemma FirstAtAfterDotted(s: string, i: int)
    requires 0 <= i < |s| && s[i] == '@' && Dotted(s[..i])
    ensures IndexOfAt(s) == i
  {
  }

  /** The direct test accepts exactly the strings the regular expression matches. */
  lemma ValidIffPattern(s: string)
    ensures IsValid(s) <==> Pattern(s)
  {
    var at := IndexOfAt(s);
    if IsValid(s) {
      DomainIffDirect(s[at + 1..]);
      assert s[at] == '@' && Dotted(s[..at]) && DomainPattern(s[at + 1..]);
    }
    if Pattern(s) {
      var i :| 0 <= i < |s| && s[i] == '@' && Dotted(s[..i]) && DomainPattern(s[i + 1..]);
      FirstAtAfterDotted(s, i);
      DomainIffDirect(s[i + 1..]);
    }
  }
}

=== FILE: error_handler.dfy ===
/**
 * The final error-handling middleware of the API server (backend/server.js),
 * as a classifier from a thrown error to a status and a JSON body.
 */
module ErrorHandler {
  import opened Common

  /**
   * The fields of a thrown error the handler reads: `name`, `message`,
   * `status`, the messages of the nested `errors` (in order), and `stack`.
   */
  datatype AppError = AppError(name: string, message: string, status: Option<int>, nested: seq<string>, stack: string)

  /** The JSON body: `success`, `message`, and the optional `errors` and `stack` keys. */
  datatype ErrorBody = ErrorBody(success: bool, message: string, errors: Option<seq<string>>, stack: Option<string>)

  datatype Reply = Reply(status: int, body: ErrorBody)

  /** Error names with a dedicated branch. */
  predicate IsNamedError(name: string) {
    name == "ValidationError" || name == "CastError" || name == "JsonWebTokenError" || name == "TokenExpiredError"
  }

  /** `err.status || 500`: an absent or zero status is falsy. */
  function StatusOrDefault(status: Option<int>): (s: int)
    ensures status.Some? && status.value != 0 ==> s == status.value
    ensures status.None? || status.value == 0 ==> s == 500
  {
    if status.Some? && status.value != 0 then status.value else 500
  }

  /** The handler; `nodeEnv` is `process.env.NODE_ENV`. */
  function HandleError(err: AppError, nodeEnv: Option<string>): (r: Reply)
    ensures !r.body.success
    ensures err.name == "ValidationError" ==>
              r == Reply(400, ErrorBody(false, "Validation failed", Some(err.nested), None))
    ensures err.name == "CastError" ==> r == Reply(400, ErrorBody(false, "Invalid ID format", None, None))
    ensures err.name == "JsonWebTokenError" ==> r == Reply(401, ErrorBody(false, "Invalid token", None, None))
    ensures err.name == "TokenExpiredError" ==> r == Reply(401, ErrorBody(false, "Token expired", None, None))
    ensures !IsNamedError(err.name) ==>
              && r.status == StatusOrDefault(err.status)
              && r.body.message == OrElse(Some(err.message), "Internal server error")
              && r.body.errors.None?
    ensures r.body.errors.Some? <==> err.name == "ValidationError"
    ensures r.body.stack.Some? <==> !IsNamedError(err.name) && nodeEnv == Some("development")
    ensures r.body.stack.Some? ==> r.body.stack.value == err.stack
  {
    if err.name == "ValidationError" then Reply(400, ErrorBody(false, "Validation failed", Some(err.nested), None))
    else if err.name == "CastError" then Reply(400, ErrorBody(false, "Invalid ID format", None, None))
    else if err.name == "JsonWebTokenError" then Reply(401, ErrorBody(false, "Invalid token", None, None))
    else if err.name == "TokenExpiredError" then Reply(401, ErrorBody(false, "Token expired", None, None))
    else
      Reply(StatusOrDefault(err.status),
            ErrorBody(false, OrElse(Some(err.message), "Internal server error"), None,
                      if nodeEnv == Some("development") then Some(err.stack) else None))
  }

  /** Outside development no reply ever carries a stack trace. */
  lemma NoStackOutsideDevelopment(err: AppError, nodeEnv: Option<string>)
    requires nodeEnv != Some("development")
    ensures HandleError(err, nodeEnv).body.stack.None?
  {
  }

  /** Each named error gets a fixed client-error status; every other error without a status is a 500. */
  lemma StatusClassification(err: AppError, nodeEnv: Option<string>)
    ensures IsNamedError(err.name) ==> 400 <= HandleError(err, nodeEnv).status <= 401
    ensures !IsNamedError(err.name) && (err.status.None? || err.status == Some(0)) ==>
              HandleError(err, nodeEnv).status == 500
  {
  }

  /** The reply to a validation error lists one message per nested error, in order. */
  lemma ValidationErrorsListed(err: AppError, nodeEnv: Option<string>)
    requires err.name == "ValidationError"
    ensures |HandleError(err, nodeEnv).body.errors.value| == |err.nested|
    ensures forall i | 0 <= i < |err.nested| :: HandleError(err, nodeEnv).body.errors.value[i] == err.nested[i]
  {
  }
}

=== FILE: home_page.dfy ===
/**
 * The decision logic of the home page (frontend/casaHaven/src/components/Home.jsx):
 * the "become a host" handler as a trace of effects, the host button's label,
 * and the banner and tagline rotations.
 */
module HomePage {
  import opened Common

  const RegisterPath := "/register"
  const HostDashboardPath := "/host/dashboard"
  const DefaultWelcome := "Welcome to hosting! You can now add your first property."
  const DefaultFailure := "Failed to become a host. Please try again."
  /** Delay before the success toast hides and the redirect happens. */
  const ToastDelayMs := 3000

  /** What `becomeHost()` from the auth context did: resolved with a result object, or threw. */
  datatype HostResult = Returned(success: bool, message: Option<string>, error: Option<string>) | Threw

  /** An observable step of the handler, in the order it happens. */
  datatype Effect =
    | Navigate(path: string)
    | SetBusy(on: bool)
    | CallBecomeHost
    | ShowToast(message: string)
    | HideToastThenNavigate(delayMs: int, path: string)
    | Alert(message: string)

  /** `handleBecomeHost`: `role` is `user?.role`, `result` is what the backend call would produce. */
  function HandleBecomeHost(isAuthenticated: bool, role: Option<string>, result: HostResult): (es: seq<Effect>)
    ensures !isAuthenticated ==> es == [Navigate(RegisterPath)]
    ensures isAuthenticated && role == Some("host") ==> es == [Navigate(HostDashboardPath)]
    ensures isAuthenticated && role != Some("host") && role != Some("guest") ==> es == []
    ensures CallBecomeHost in es <==> isAuthenticated && role == Some("guest")
  {
    if !isAuthenticated then [Navigate(RegisterPath)]
    else if role == Some("host") then [Navigate(HostDashboardPath)]
    else if role == Some("guest") then
      [SetBusy(true), CallBecomeHost] + Settle(result) + [SetBusy(false)]
    else []
  }

  /**
   * The try/catch around the backend call, before the `finally`: a success
   * toasts and schedules the redirect; a failure alerts with the backend's
   * error, a throw with the default text.
   */
  function Settle(result: HostResult): (es: seq<Effect>)
    ensures forall e | e in es :: !e.SetBusy? && !e.CallBecomeHost? && !e.Navigate?
    ensures result.Returned? && result.success ==>
              es == [ShowToast(OrElse(result.message, DefaultWelcome)), HideToastThenNavigate(ToastDelayMs, HostDashboardPath)]
    ensures result.Returned? && !result.success ==> es == [Alert(OrElse(result.error, DefaultFailure))]
    ensures result.Threw? ==> es == [Alert(DefaultFailure)]
  {
    match result
    case Returned(true, message, _) =>
      [ShowToast(OrElse(message, DefaultWelcome)), HideToastThenNavigate(ToastDelayMs, HostDashboardPath)]
    case Returned(false, _, error) => [Alert(OrElse(error, DefaultFailure))]
    case Threw => [Alert(DefaultFailure)]
  }

  /** The `isBecomingHost` flag after a sequence of effects, starting from `start`. */
  function BusyAfter(start: bool, es: seq<Effect>): bool
    decreases |es|
  {
    if |es| == 0 then start
    else BusyAfter(if es[0].SetBusy? then es[0].on else start, es[1..])
  }

  /** The busy flag is set while the backend call runs and cleared afterwards, on every path. */
  lemma BusyFlagDiscipline(isAuthenticated: bool, role: Option<string>, result: HostResult)
    ensures BusyAfter(false, HandleBecomeHost(isAuthenticated, role, result)) == false
    ensures forall k | 0 <= k < |HandleBecomeHost(isAuthenticated, role, result)| ::
              HandleBecomeHost(isAuthenticated, role, result)[k] == CallBecomeHost ==>
                BusyAfter(false, HandleBecomeHost(isAuthenticated, role, result)[..k])
  {
    var es := HandleBecomeHost(isAuthenticated, role, result);
    if isAuthenticated && role == Some("guest") {
      var mid := Settle(result);
      assert es == [SetBusy(true), CallBecomeHost] + mid + [SetBusy(false)];
      assert es[..1] == [SetBusy(true)];
      forall k | 0 <= k < |es| && es[k] == CallBecomeHost
        ensures k == 1
      {
      }
      BusyAfterLast(false, es[..|es| - 1], false);
      assert es == es[..|es| - 1] + [SetBusy(false)];
    }
  }

  /** Whatever came before, a final `SetBusy(b)` leaves the flag at `b`. */
  lemma {:induction false} BusyAfterLast(start: bool, es: seq<Effect>, b: bool)
    ensures BusyAfter(start, es + [SetBusy(b)]) == b
    decreases |es|
  {
    if |es| == 0 {
      assert BusyAfter(b, []) == b;
    } else {
      assert (es + [SetBusy(b)])[1..] == es[1..] + [SetBusy(b)];
      BusyAfterLast(if es[0].SetBusy? then es[0].on else start, es[1..], b);
    }
  }

  /** A guest's successful upgrade shows the backend's message (or the default) and then goes to the dashboard. */
  lemma GuestSuccessToastsThenRedirects(message: Option<string>, error: Option<string>)
    ensures HandleBecomeHost(true, Some("guest"), Returned(true, message, error)) ==
              [SetBusy(true), CallBecomeHost, ShowToast(OrElse(message, DefaultWelcome)),
               HideToastThenNavigate(ToastDelayMs, HostDashboardPath), SetBusy(false)]
    ensures message.Some? && message.value != "" ==>
              ShowToast(message.value) in HandleBecomeHost(true, Some("guest"), Returned(true, message, error))
  {
  }

  /** A guest's failed upgrade, or a thrown error, alerts and never navigates. */
  lemma GuestFailureAlertsOnly(result: HostResult)
    requires result.Threw? || !result.success
    ensures forall e | e in HandleBecomeHost(true, Some("guest"), result) ::
              !e.Navigate? && !e.HideToastThenNavigate? && !e.ShowToast?
    ensures result.Returned? ==> Alert(OrElse(result.error, DefaultFailure)) in HandleBecomeHost(true, Some("guest"), result)
    ensures result.Threw? ==> Alert(DefaultFailure) in HandleBecomeHost(true, Some("guest"), result)
  {
    var es := HandleBecomeHost(true, Some("guest"), result);
    assert es[2].Alert? && es[2] in es;
  }

  /** The host button's label (`busy` is `isBecomingHost`). */
  function HostButtonLabel(busy: bool, isAuthenticated: bool, role: Option<string>): (caption: string)
    ensures busy ==> caption == (if role == Some("guest") then "Becoming Host..." else "Loading...")
    ensures !busy ==> (caption == "Host Dashboard" <==> isAuthenticated && role == Some("host"))
    ensures !busy ==> (caption == "Host Dashboard" || caption == "Become a Host")
  {
    if busy then (if role == Some("guest") then "Becoming Host..." else "Loading...")
    else if !isAuthenticated then "Become a Host"
    else if role == Some("host") then "Host Dashboard"
    else "Become a Host"
  }

  /** The idle label says "Host Dashboard" exactly when a click goes straight to the dashboard. */
  lemma LabelMatchesAction(isAuthenticated: bool, role: Option<string>, result: HostResult)
    ensures HostButtonLabel(false, isAuthenticated, role) == "Host Dashboard" <==>
              HandleBecomeHost(isAuthenticated, role, result) == [Navigate(HostDashboardPath)]
  {
  }

  const BannerCount: nat := 5
  const TaglineCount: nat := 4

  /** One tick of a rotation: `(prev + 1) % length`. */
  function Next(prev: nat, length: nat): (i: nat)
    requires length > 0
    ensures i < length
    ensures prev + 1 < length ==> i == prev + 1
    ensures prev + 1 == length ==> i == 0
  {
    (prev + 1) % length
  }

  /** The index after `ticks` timer ticks, starting at 0. */
  function AfterTicks(ticks: nat, length: nat): (i: nat)
    requires length > 0
    ensures i < length
  {
    if ticks == 0 then 0 else Next(AfterTicks(ticks - 1, length), length)
  }

  /** The rotation visits the messages in order and wraps around: after n ticks it shows message n mod length. */
  lemma {:induction false} AfterTicksIsModular(ticks: nat, length: nat)
    requires length > 0
    ensures AfterTicks(ticks, length) == ticks % length
  {
    if ticks > 0 {
      AfterTicksIsModular(ticks - 1, length);
      ModStep(ticks - 1, length);
    }
  }

  /** Adding one to `a` moves `a % length` one step round the cycle. */
  lemma ModStep(a: nat, length: nat)
    requires length > 0
    ensures (a + 1) % length == (if a % length + 1 < length then a % length + 1 else 0)
  {
    var q, r := a / length, a % length;
    assert a + 1 == q * length + (r + 1);
    if r + 1 < length {
      RemainderUnique(a + 1, q, r + 1, length);
    } else {
      Distributes(q + 1, 1, length);
      RemainderUnique(a + 1, q + 1, 0, length);
    }
  }

  /** `a % length` is the one remainder in range: the arithmetic behind `AfterTicksIsModular`. */
  lemma RemainderUnique(a: int, q: int, r: int, length: int)
    requires length > 0 && 0 <= r < length && a == q * length + r
    ensures a % length == r
  {
    var q2, r2 := a / length, a % length;
    Distributes(q, q2, length);
    assert (q - q2) * length == r2 - r;
    if q - q2 >= 1 {
      MultipleAtLeast(q - q2, length);
    } else if q - q2 <= -1 {
      MultipleAtLeast(q2 - q, length);
      Distributes(0, q - q2, length);
    }
  }

  lemma Distributes(a: int, b: int, length: int)
    ensures (a - b) * length == a * length - b * length
  {
  }

  lemma MultipleAtLeast(k: int, length: int)
    requires k >= 1 && length > 0
    ensures k * length >= length
  {
  }

  /** The banner and tagline indices stay inside their arrays forever. */
  lemma RotationsInBounds(ticks: nat)
    ensures AfterTicks(ticks, BannerCount) < BannerCount
    ensures AfterTicks(ticks, TaglineCount) < TaglineCount
  {
  }
}

=== FILE: route_guards.dfy ===
/**
 * Route gating of the single-page app (frontend/casaHaven/src/App.jsx):
 * `PrivateRoute`, `PublicRoute` and the route table's access policies.
 */
module RouteGuards {
  import opened Common

  /** The auth context's current user, as the guards read it: only `user.role` matters. */
  datatype SessionUser = SessionUser(role: Option<string>)

  /** What a guard renders: the loading placeholder, a `<Navigate replace>`, or its children. */
  datatype Gate = Loading | Redirect(to: string) | Render

  const LoginPath := "/login"
  const UnauthorizedPath := "/unauthorized"
  const RootPath := "/"

  /** `roles.includes(user.role)`: an undefined role is in no list of role names. */
  predicate Includes(roles: seq<string>, role: Option<string>) {
    role.Some? && role.value in roles
  }

  /** `PrivateRoute`: wait while loading, send anonymous visitors to log in, enforce the role list. */
  function PrivateRoute(loading: bool, user: Option<SessionUser>, roles: seq<string>): (g: Gate)
    ensures loading ==> g == Loading
    ensures !loading && user.None? ==> g == Redirect(LoginPath)
    ensures g == Render <==> !loading && user.Some? && (|roles| == 0 || Includes(roles, user.value.role))
    ensures g == Redirect(UnauthorizedPath) <==>
              !loading && user.Some? && |roles| > 0 && !Includes(roles, user.value.role)
    ensures g.Redirect? ==> g.to == LoginPath || g.to == UnauthorizedPath
  {
    if loading then Loading
    else if user.None? then Redirect(LoginPath)
    else if |roles| > 0 && !Includes(roles, user.value.role) then Redirect(UnauthorizedPath)
    else Render
  }

  /** `PublicRoute`: a signed-in user is sent home; it never waits for loading. */
  function PublicRoute(user: Option<SessionUser>): (g: Gate)
    ensures g == Redirect(RootPath) <==> user.Some?
    ensures g == Render <==> user.None?
  {
    if user.Some? then Redirect(RootPath) else Render
  }

  /** The pages of the route table. */
  datatype Page =
    | Home | Properties | PropertyDetail | OAuthSuccess | OAuthRoleSelection
    | Contact | Support | PrivacyPolicy | TermsOfService
    | Login | Register
    | Bookings | BookRequest | BookingSuccess | BookingDetail | Reviews
    | HostDashboard | AddProperty | EditProperty
    | AdminDashboard | Profile
    | NotFound

  /** How a page's element is wrapped. */
  datatype Policy = Open | PublicOnly | Private(roles: seq<string>)

  /** The route table's path patterns. */
  function PathOf(p: Page): string {
    match p
    case Home => "/"
    case Properties => "/properties"
    case PropertyDetail => "/properties/:id"
    case OAuthSuccess => "/auth/success"
    case OAuthRoleSelection => "/auth/role-selection"
    case Contact => "/contact"
    case Support => "/support"
    case PrivacyPolicy => "/privacy-policy"
    case TermsOfService => "/terms-of-service"
    case Login => "/login"
    case Register => "/register"
    case Bookings => "/bookings"
    case BookRequest => "/book/:propertyId"
    case BookingSuccess => "/booking-success"
    case BookingDetail => "/booking/:bookingId"
    case Reviews => "/reviews/:propertyId"
    case HostDashboard => "/host/dashboard"
    case AddProperty => "/host/add-property"
    case EditProperty => "/host/edit-property/:id"
    case AdminDashboard => "/admin/dashboard"
    case Profile => "/profile"
    case NotFound => "*"
  }

  /** The route table's guards and role lists. */
  function PolicyOf(p: Page): Policy {
    match p
    case Login | Register => PublicOnly
    case Bookings | BookRequest | BookingSuccess | BookingDetail | Reviews | Profile => Private([])
    case HostDashboard | AddProperty | EditProperty => Private(["host", "admin"])
    case AdminDashboard => Private(["admin"])
    case _ => Open
  }

  /** What visiting a page shows, given the auth context. */
  function Access(p: Page, loading: bool, user: Option<SessionUser>): Gate {
    match PolicyOf(p)
    case Open => Render
    case PublicOnly => PublicRoute(user)
    case Private(roles) => PrivateRoute(loading, user, roles)
  }

  /** The pages under `/host/`. */
  predicate IsHostPage(p: Page) {
    p == HostDashboard || p == AddProperty || p == EditProperty
  }

  /** The pages the route table restricts to hosts and admins are exactly the routes under `/host/`. */
  lemma HostPagesAreUnderHost(p: Page)
    ensures PolicyOf(p) == Private(["host", "admin"]) <==> "/host/" <= PathOf(p)
    ensures IsHostPage(p) <==> PolicyOf(p) == Private(["host", "admin"])
  {
    var path := PathOf(p);
    if IsHostPage(p) {
      assert path[..6] == "/host/";
    } else if |path| >= 6 {
      assert path[1] != 'h';
      assert path[..6][1] != "/host/"[1];
    }
  }

  /** A host page renders exactly for a loaded host or admin. */
  lemma HostPagesRenderIff(p: Page, loading: bool, user: Option<SessionUser>)
    requires IsHostPage(p)
    ensures Access(p, loading, user) == Render <==>
              !loading && user.Some? && (user.value.role == Some("host") || user.value.role == Some("admin"))
  {
  }

  /** A guest never renders a host page: it is sent to `/unauthorized` once loaded. */
  lemma GuestNeverRendersHostPages(p: Page, loading: bool, user: Option<SessionUser>)
    requires IsHostPage(p) && user.Some? && user.value.role == Some("guest")
    ensures Access(p, loading, user) != Render
    ensures !loading ==> Access(p, loading, user) == Redirect(UnauthorizedPath)
  {
  }

  /** Only an admin renders the admin dashboard. */
  lemma AdminDashboardRenderIff(loading: bool, user: Option<SessionUser>)
    ensures Access(AdminDashboard, loading, user) == Render <==>
              !loading && user.Some? && user.value.role == Some("admin")
  {
  }

  /** A private page renders only for a loaded user, and never redirects while loading. */
  lemma PrivatePagesNeedUser(p: Page, loading: bool, user: Option<SessionUser>)
    requires PolicyOf(p).Private?
    ensures Access(p, loading, user) == Render ==> !loading && user.Some?
    ensures loading ==> Access(p, loading, user) == Loading
  {
  }

  /** A private page with no role list renders for every loaded user, whatever the role. */
  lemma UnrestrictedPagesRenderForAnyUser(p: Page, user: Option<SessionUser>)
    requires PolicyOf(p) == Private([])
    ensures Access(p, false, user) == Render <==> user.Some?
  {
  }

  /** Login and register show their form exactly to anonymous visitors, even while loading. */
  lemma PublicOnlyPagesIgnoreLoading(p: Page, loading: bool, user: Option<SessionUser>)
    requires PolicyOf(p) == PublicOnly
    ensures Access(p, loading, user) == Access(p, !loading, user)
    ensures Access(p, loading, user) == Render <==> user.None?
  {
  }
}

=== FILE: text.dfy ===
/**
 * The two string setters Mongoose applies to the user schema's paths:
 * `trim` (JavaScript's `String.prototype.trim`) and `lowercase`.
 */
module Text {

  /** The WhiteSpace and LineTerminator code points that `String.prototype.trim` removes. */
  predicate IsJsSpace(c: char) {
    || c == '\t' || c == '\n' || c == '\r' || c == ' '
    || c == '\U{000B}' || c == '\U{000C}' || c == '\U{00A0}' || c == '\U{1680}'
    || ('\U{2000}' <= c <= '\U{200A}')
    || c == '\U{2028}' || c == '\U{2029}' || c == '\U{202F}' || c == '\U{205F}'
    || c == '\U{3000}' || c == '\U{FEFF}'
  }

  /** Neither end of `s` is a space: the strings `trim` leaves alone. */
  predicate Trimmed(s: string) {
    |s| == 0 || (!IsJsSpace(s[0]) && !IsJsSpace(s[|s| - 1]))
  }

  /** Drops the leading spaces: the result is a suffix that starts with a non-space. */
  function TrimStart(s: string): (r: string)
    ensures |r| <= |s| && r == s[|s| - |r|..]
    ensures |r| == 0 || !IsJsSpace(r[0])
    ensures |s| > 0 && !IsJsSpace(s[0]) ==> r == s
  {
    if |s| > 0 && IsJsSpace(s[0]) then TrimStart(s[1..]) else s
  }

  /** Everything `TrimStart` drops is a space. */
  lemma {:induction false} TrimStartDropsSpaces(s: string)
    ensures forall i | 0 <= i < |s| - |TrimStart(s)| :: IsJsSpace(s[i])
    decreases |s|
  {
    if |s| > 0 && IsJsSpace(s[0]) {
      TrimStartDropsSpaces(s[1..]);
      forall i | 1 <= i < |s| - |TrimStart(s)|
        ensures IsJsSpace(s[i])
      {
        assert s[i] == s[1..][i - 1];
      }
    }
  }

  /** Drops the trailing spaces: the result is a prefix that ends with a non-space. */
  function TrimEnd(s: string): (r: string)
    ensures |r| <= |s| && r == s[..|r|]
    ensures |r| == 0 || !IsJsSpace(r[|r| - 1])
    ensures |s| > 0 && !IsJsSpace(s[|s| - 1]) ==> r == s
  {
    if |s| > 0 && IsJsSpace(s[|s| - 1]) then TrimEnd(s[..|s| - 1]) else s
  }

  /** Everything `TrimEnd` drops is a space. */
  lemma {:induction false} TrimEndDropsSpaces(s: string)
    ensures forall i | |TrimEnd(s)| <= i < |s| :: IsJsSpace(s[i])
    decreases |s|
  {
    if |s| > 0 && IsJsSpace(s[|s| - 1]) {
      TrimEndDropsSpaces(s[..|s| - 1]);
      forall i | |TrimEnd(s)| <= i < |s| - 1
        ensures IsJsSpace(s[i])
      {
        assert s[i] == s[..|s| - 1][i];
      }
    }
  }

  /**
   * `String.prototype.trim`: a contiguous slice of the input, with nothing but
   * spaces cut off before and after it, and no space left at either end.
   */
  function Trim(s: string): (r: string)
    ensures Trimmed(r)
    ensures Trimmed(s) ==> r == s
    ensures |r| <= |s|
    ensures exists k | 0 <= k <= |s| - |r| :: SpacesAround(s, k, r)
  {
    TrimCutsOnlySpaces(s);
    TrimEnd(TrimStart(s))
  }

  /** The two halves of trim together cut only spaces, from the two ends of one slice. */
  lemma TrimCutsOnlySpaces(s: string)
    ensures SpacesAround(s, |s| - |TrimStart(s)|, TrimEnd(TrimStart(s)))
  {
    var t := TrimStart(s);
    var r := TrimEnd(t);
    TrimStartDropsSpaces(s);
    TrimEndDropsSpaces(t);
    SliceOfSlice(s, t, r);
  }

  /** A prefix `r` of a suffix `t` of `s`, with spaces cut on both sides, is a slice of `s` with spaces around it. */
  lemma SliceOfSlice(s: string, t: string, r: string)
    requires |t| <= |s| && t == s[|s| - |t|..] && (forall i | 0 <= i < |s| - |t| :: IsJsSpace(s[i]))
    requires |r| <= |t| && r == t[..|r|] && (forall i | |r| <= i < |t| :: IsJsSpace(t[i]))
    ensures SpacesAround(s, |s| - |t|, r)
  {
    var k := |s| - |t|;
    forall j | 0 <= j < |r|
      ensures r[j] == s[k + j]
    {
      assert r[j] == t[j];
    }
    forall i | k + |r| <= i < |s|
      ensures IsJsSpace(s[i])
    {
      assert s[i] == t[i - k];
    }
  }

  /** `s` is `r` at offset `k`, and every character of `s` outside that slice is a space. */
  predicate SpacesAround(s: string, k: int, r: string) {
    && 0 <= k <= |s| - |r| && r == s[k..k + |r|]
    && (forall i | 0 <= i < k :: IsJsSpace(s[i]))
    && (forall i | k + |r| <= i < |s| :: IsJsSpace(s[i]))
  }

  /** Trim's contract pins its result: only one trimmed slice has nothing but spaces around it. */
  lemma TrimUnique(s: string, k: int, r: string)
    requires SpacesAround(s, k, r) && Trimmed(r)
    ensures r == Trim(s)
  {
    var k' :| 0 <= k' <= |s| - |Trim(s)| && SpacesAround(s, k', Trim(s));
    SlicesAgree(s, k, r, k', Trim(s));
  }

  /** Two trimmed slices, each with only spaces around it, are the same slice. */
  lemma SlicesAgree(s: string, k: int, r: string, k': int, r': string)
    requires SpacesAround(s, k, r) && Trimmed(r) && SpacesAround(s, k', r') && Trimmed(r')
    ensures r == r'
  {
    if |r| > 0 && |r'| > 0 {
      // Each slice starts at the first non-space and ends just after the last one.
      assert k == k' && |r| == |r'|;
    }
  }

  /** JavaScript's `.length`: UTF-16 code units, so a code point above U+FFFF counts twice. */
  function Utf16Length(s: string): (n: nat)
    ensures |s| <= n <= 2 * |s|
    ensures (forall i | 0 <= i < |s| :: s[i] as int <= 0xFFFF) ==> n == |s|
    ensures |s| == 1 ==> n == (if s[0] as int > 0xFFFF then 2 else 1)
  {
    if |s| == 0 then 0
    else (if s[0] as int > 0xFFFF then 2 else 1) + Utf16Length(s[1..])
  }

  /** `.length` is additive over concatenation, so with the one-character values it is pinned on every string. */
  lemma {:induction false} Utf16LengthAppend(a: string, b: string)
    ensures Utf16Length(a + b) == Utf16Length(a) + Utf16Length(b)
    decreases |a|
  {
    if |a| > 0 {
      assert (a + b)[1..] == a[1..] + b;
      Utf16LengthAppend(a[1..], b);
    } else {
      assert a + b == b;
    }
  }

  /** Lower-cases an ASCII capital and leaves every other character alone. */
  function LowerChar(c: char): (d: char)
    ensures IsJsSpace(d) <==> IsJsSpace(c)
    ensures !('A' <= d <= 'Z')
    ensures 'a' <= c <= 'z' ==> d == c
  {
    if 'A' <= c <= 'Z' then (c as int + 32) as char else c
  }

  /** `String.prototype.toLowerCase`, restricted to ASCII capitals (see README). */
  function Lower(s: string): (r: string)
    ensures |r| == |s|
    ensures forall i | 0 <= i < |s| :: r[i] == LowerChar(s[i])
  {
    seq(|s|, i requires 0 <= i < |s| => LowerChar(s[i]))
  }

  /** Trimming twice is trimming once. */
  lemma TrimIdempotent(s: string)
    ensures Trim(Trim(s)) == Trim(s)
  {
  }

  /** Lower-casing leaves a string without ASCII capitals unchanged. */
  lemma LowerFixesLowercase(s: string)
    ensures (forall i | 0 <= i < |s| :: !('A' <= s[i] <= 'Z')) ==> Lower(s) == s
  {
  }

  /** Lower-casing twice is lower-casing once. */
  lemma LowerIdempotent(s: string)
    ensures Lower(Lower(s)) == Lower(s)
  {
    var once := Lower(s);
    var twice := Lower(once);
    forall i | 0 <= i < |s|
      ensures twice[i] == once[i]
    {
      assert once[i] == LowerChar(s[i]);
    }
  }

  /** Lower-casing keeps a trimmed string trimmed, since it maps spaces to spaces only. */
  lemma LowerKeepsTrimmed(s: string)
    requires Trimmed(s)
    ensures Trimmed(Lower(s))
  {
  }
}

=== FILE: user_controller.dfy ===
/**
 * The user controller (backend/controllers/userController.js): register,
 * getAllUsers, getUserById and updateUser over the map store. Each operation
 * returns the new store and the HTTP response it sends.
 */
module UserController {
  import opened Common
  import opened UserSchema
  import opened UserStore
  import Text
  import EmailShape

  /** What a failed operation reports in its `error` field. */
  datatype Failure =
    | ValidationFailed(violations: seq<Violation>)
    | DuplicateKey(key: IndexKey)
    | CastFailed(value: string)

  datatype Payload =
    | NoPayload
    | ErrorDetail(failure: Failure)
    | OneUser(user: PublicUser)
    | UserList(users: seq<PublicUser>)

  /** An HTTP response: status, the `message` field (absent for bare bodies) and the rest of the body. */
  datatype Response = Response(status: int, message: Option<string>, payload: Payload)

  datatype Outcome = Outcome(store: Store, response: Response)

  const UserExistsMessage := "User already exists"
  const RegisteredMessage := "User registered successfully"
  const RegisterErrorMessage := "Error registering user"
  const FetchErrorMessage := "Error fetching user"
  const NotFoundMessage := "User not found"
  const UpdatedMessage := "User updated successfully"
  const UpdateErrorMessage := "Error updating user"

  /** The catch block of every operation: status 500, the operation's message, the error. */
  function Fail(message: string, f: Failure): Response {
    Response(500, Some(message), ErrorDetail(f))
  }

  /** One key of `{ ...base, ...over }`: the later object wins when it has the key. */
  function Spread<T>(over: Option<T>, base: Option<T>): (r: Option<T>)
    ensures over.Some? ==> r == over
    ensures over.None? ==> r == base
  {
    if over.Some? then over else base
  }

  /** The host defaults the controller synthesises. */
  function HostBase(now: Instant): HostInput {
    HostInput(Some(true), Some(now), None, Some(0.0), Some(0))
  }

  /** The guest defaults the controller synthesises. */
  const GuestBase := GuestInput(Some(true), None, None)

  /** `{ ...base, ...over }` on a hostDetails object; spreading `undefined` adds nothing. */
  function OverlayHost(base: HostInput, over: Option<HostInput>): HostInput {
    var o := over.GetOr(NoHostInput);
    HostInput(Spread(o.isHost, base.isHost), Spread(o.hostSince, base.hostSince),
              Spread(o.totalListings, base.totalListings), Spread(o.averageRating, base.averageRating),
              Spread(o.totalReviews, base.totalReviews))
  }

  /** `{ ...base, ...over }` on a guestDetails object. */
  function OverlayGuest(base: GuestInput, over: Option<GuestInput>): GuestInput {
    var o := over.GetOr(NoGuestInput);
    GuestInput(Spread(o.isGuest, base.isGuest), Spread(o.totalBookings, base.totalBookings),
               Spread(o.wishlist, base.wishlist))
  }

  /** The `userData` object: the body, with role-dependent sub-profiles for the exact roles "host" and "guest". */
  function UserData(b: UserInput, now: Instant): (d: UserInput)
    ensures d.(hostDetails := b.hostDetails, guestDetails := b.guestDetails) == b
    ensures d.hostDetails == (if b.role == Some("host") then Some(OverlayHost(HostBase(now), b.hostDetails)) else b.hostDetails)
    ensures d.guestDetails == (if b.role == Some("guest") then Some(OverlayGuest(GuestBase, b.guestDetails)) else b.guestDetails)
  {
    var withHost := if b.role == Some("host") then b.(hostDetails := Some(OverlayHost(HostBase(now), b.hostDetails))) else b;
    if b.role == Some("guest") then withHost.(guestDetails := Some(OverlayGuest(GuestBase, b.guestDetails))) else withHost
  }

  /** `User.findOne({ email })` finds a record; the query runs the email setters first. */
  predicate EmailTaken(s: Store, email: Option<string>) {
    email.Some? && HasEmail(s, NormalizeEmail(email.value))
  }

  /**
   * `register`: duplicate check, role-dependent defaults, `new User(userData).save()`
   * (validate, then hash), insert, and a response without the password.
   * `newId` is the ObjectId the driver generates; `now` is the clock.
   */
  function Register(store: Store, body: UserInput, newId: Id, now: Instant): (o: Outcome)
    ensures o.response.status in {201, 400, 500}
    ensures o.response.status == 400 <==> EmailTaken(store, body.email)
    ensures o.response.status == 400 ==> o == Outcome(store, Response(400, Some(UserExistsMessage), NoPayload))
    ensures o.response.status != 201 ==> o.store == store
    ensures o.response.status == 500 ==> o.response.message == Some(RegisterErrorMessage)
    ensures o.response.status == 201 <==>
              !EmailTaken(store, body.email) && Conforms(ApplySetters(UserData(body, now))) && newId !in store
    ensures o.response.status == 201 ==>
              && newId !in store && newId in o.store
              && o.store == store[newId := o.store[newId]]
              && o.response == Response(201, Some(RegisteredMessage), OneUser(View(newId, o.store[newId])))
              && body.email.Some? && o.store[newId].email == NormalizeEmail(body.email.value)
              && body.password.Some? && o.store[newId].password == Hashed(Plain(body.password.value))
  {
    if EmailTaken(store, body.email) then
      Outcome(store, Response(400, Some(UserExistsMessage), NoPayload))
    else
      var c := ApplySetters(UserData(body, now));
      var vs := Validate(c);
      if vs != [] then
        Outcome(store, Fail(RegisterErrorMessage, ValidationFailed(vs)))
      else
        var saved := Save(Doc(NewUser(c, now), true)).user;
        match Insert(store, newId, saved)
        case Err(k) => Outcome(store, Fail(RegisterErrorMessage, DuplicateKey(k)))
        case Ok(s') => Outcome(s', Response(201, Some(RegisteredMessage), OneUser(View(newId, saved))))
  }

  /** The record a successful register stores. */
  function Registered(store: Store, body: UserInput, newId: Id, now: Instant): User
    requires Register(store, body, newId, now).response.status == 201
  {
    Register(store, body, newId, now).store[newId]
  }

  /** What a successful register stores: the record `new User` builds from the cast body, password hashed. */
  lemma RegisteredRecord(store: Store, body: UserInput, newId: Id, now: Instant)
    requires Register(store, body, newId, now).response.status == 201
    ensures Conforms(ApplySetters(UserData(body, now)))
    ensures Registered(store, body, newId, now).(password := Plain(body.password.value))
              == NewUser(ApplySetters(UserData(body, now)), now)
  {
    var c := ApplySetters(UserData(body, now));
    assert Validate(c) == [];
    var saved := Save(Doc(NewUser(c, now), true)).user;
    assert Registered(store, body, newId, now) == saved;
  }

  /** The duplicate check makes the email index unreachable from register: its only clash is on `_id`. */
  lemma RegisterNeverHitsEmailIndex(store: Store, body: UserInput, newId: Id, now: Instant)
    ensures Register(store, body, newId, now).response.payload != ErrorDetail(DuplicateKey(EmailKey))
  {
  }

  /** Register keeps the store valid: unique normalised emails, well-formed records. */
  lemma RegisterPreservesValid(store: Store, body: UserInput, newId: Id, now: Instant)
    requires Valid(store)
    ensures Valid(Register(store, body, newId, now).store)
    ensures Register(store, body, newId, now).response.status == 201 ==>
              |Register(store, body, newId, now).store| == |store| + 1
  {
    var o := Register(store, body, newId, now);
    if o.response.status == 201 {
      var c := ApplySetters(UserData(body, now));
      var saved := Save(Doc(NewUser(c, now), true)).user;
      SavedNewUserOk(UserData(body, now), now);
      InsertPreservesValid(store, newId, saved);
    }
  }

  /** A registered user can log in with the password given, and with no other. */
  lemma RegisteredPasswordCompares(store: Store, body: UserInput, newId: Id, now: Instant, q: string)
    requires Register(store, body, newId, now).response.status == 201
    ensures ComparePassword(q, Registered(store, body, newId, now).password) <==> q == body.password.value
  {
  }

  /** Registering the same normalised email twice: the second attempt gets 400 and changes nothing. */
  lemma RegisterTwiceConflicts(store: Store, b1: UserInput, b2: UserInput, id1: Id, id2: Id, t1: Instant, t2: Instant)
    requires Register(store, b1, id1, t1).response.status == 201
    requires b2.email.Some? && NormalizeEmail(b2.email.value) == NormalizeEmail(b1.email.value)
    ensures Register(Register(store, b1, id1, t1).store, b2, id2, t2).response.status == 400
    ensures Register(Register(store, b1, id1, t1).store, b2, id2, t2).store == Register(store, b1, id1, t1).store
  {
    var s1 := Register(store, b1, id1, t1).store;
    assert s1[id1].email == NormalizeEmail(b2.email.value);
    assert EmailTaken(s1, b2.email);
  }

  /** role "host" with no hostDetails: isHost true, hostSince now, no listings, rating 0. */
  lemma RegisterHostDefaults(store: Store, body: UserInput, newId: Id, now: Instant)
    requires body.role == Some("host") && body.hostDetails.None?
    requires Register(store, body, newId, now).response.status == 201
    ensures Registered(store, body, newId, now).role == Host
    ensures Registered(store, body, newId, now).hostDetails == HostDetails(true, Some(now), 0, 0.0)
  {
  }

  /** role "host": every schema field the caller supplies in hostDetails wins over the synthesised one. */
  lemma RegisterHostCallerWins(store: Store, body: UserInput, newId: Id, now: Instant)
    requires body.role == Some("host") && body.hostDetails.Some?
    requires Register(store, body, newId, now).response.status == 201
    ensures var d := Registered(store, body, newId, now).hostDetails;
            var h := body.hostDetails.value;
            && d.isHost == h.isHost.GetOr(true)
            && d.hostSince == Spread(h.hostSince, Some(now))
            && d.totalListings == h.totalListings.GetOr(0)
            && d.averageRating == h.averageRating.GetOr(0.0)
  {
    RegisteredRecord(store, body, newId, now);
    var c := ApplySetters(UserData(body, now));
    StoredHostDetails(body.hostDetails.value, now);
    assert Registered(store, body, newId, now).hostDetails == NewUser(c, now).hostDetails;
  }

  /** The schema's view of `{ ...hostBase, ...h }`: each caller key wins, the synthesised one fills the gap. */
  lemma StoredHostDetails(h: HostInput, now: Instant)
    ensures var d := HostFromInput(Some(OverlayHost(HostBase(now), Some(h))));
            && d.isHost == h.isHost.GetOr(true)
            && d.hostSince == Spread(h.hostSince, Some(now))
            && d.totalListings == h.totalListings.GetOr(0)
            && d.averageRating == h.averageRating.GetOr(0.0)
  {
  }

  /**
   * role "guest": the synthesised `isGuest` is not a schema path, so the guest
   * branch changes nothing observable: it behaves exactly like an absent role.
   */
  lemma RegisterGuestBranchInvisible(store: Store, body: UserInput, newId: Id, now: Instant)
    ensures Register(store, body.(role := Some("guest")), newId, now) == Register(store, body.(role := None), newId, now)
  {
    GuestCastsLikeNoRole(body, now);
  }

  /** The cast bodies for role "guest" and for no role validate alike and build the same record. */
  lemma GuestCastsLikeNoRole(body: UserInput, now: Instant)
    ensures var cg := ApplySetters(UserData(body.(role := Some("guest")), now));
            var cn := ApplySetters(UserData(body.(role := None), now));
            && Validate(cg) == Validate(cn)
            && (Conforms(cg) ==> Conforms(cn) && NewUser(cg, now) == NewUser(cn, now))
  {
    var cg := ApplySetters(UserData(body.(role := Some("guest")), now));
    var cn := ApplySetters(UserData(body.(role := None), now));
    assert cg == cn.(role := Some("guest"), guestDetails := Some(OverlayGuest(GuestBase, body.guestDetails)));
    StoredGuestDetails(body.guestDetails);
    assert CheckRole(cg.role) == CheckRole(cn.role) == [];
    assert Validate(cg) == Validate(cn);
  }

  /** role "guest": caller fields of guestDetails are stored; bookings default to 0. */
  lemma RegisterGuestKeepsCallerFields(store: Store, body: UserInput, newId: Id, now: Instant)
    requires body.role == Some("guest")
    requires Register(store, body, newId, now).response.status == 201
    ensures var d := Registered(store, body, newId, now).guestDetails;
            var g := body.guestDetails.GetOr(NoGuestInput);
            && Registered(store, body, newId, now).role == Guest
            && d.totalBookings == g.totalBookings.GetOr(0)
            && d.wishlist == g.wishlist.GetOr([])
  {
    RegisteredRecord(store, body, newId, now);
    var c := ApplySetters(UserData(body, now));
    StoredGuestDetails(body.guestDetails);
    assert Registered(store, body, newId, now).guestDetails == NewUser(c, now).guestDetails;
  }

  /** The schema's view of `{ isGuest: true, ...g }`: the caller's keys survive, `isGuest` does not. */
  lemma StoredGuestDetails(g: Option<GuestInput>)
    ensures GuestFromInput(Some(OverlayGuest(GuestBase, g))) == GuestFromInput(g)
  {
  }

  /** Any other role (absent, "admin", or a string the enum will reject): sub-profiles pass through as given. */
  lemma RegisterOtherRolePassesThrough(store: Store, body: UserInput, newId: Id, now: Instant)
    requires body.role != Some("host") && body.role != Some("guest")
    requires Register(store, body, newId, now).response.status == 201
    ensures Registered(store, body, newId, now).hostDetails == HostFromInput(body.hostDetails)
    ensures Registered(store, body, newId, now).guestDetails == GuestFromInput(body.guestDetails)
    ensures body.role.None? ==> Registered(store, body, newId, now).role == Guest
    ensures body.role.Some? ==> Registered(store, body, newId, now).role == Admin
  {
    RegisteredRecord(store, body, newId, now);
    var c := ApplySetters(UserData(body, now));
    OtherRoleRecord(body, c, now);
    var u := NewUser(c, now);
    assert Registered(store, body, newId, now).(password := u.password) == u;
  }

  /** The record built for a role other than "host" and "guest": sub-profiles as given, role guest or admin. */
  lemma OtherRoleRecord(body: UserInput, c: UserInput, now: Instant)
    requires body.role != Some("host") && body.role != Some("guest")
    requires c == ApplySetters(UserData(body, now)) && Conforms(c)
    ensures NewUser(c, now).hostDetails == HostFromInput(body.hostDetails)
    ensures NewUser(c, now).guestDetails == GuestFromInput(body.guestDetails)
    ensures body.role.None? ==> NewUser(c, now).role == Guest
    ensures body.role.Some? ==> NewUser(c, now).role == Admin
  {
    assert c.hostDetails == body.hostDetails && c.guestDetails == body.guestDetails && c.role == body.role;
    var u := NewUser(c, now);
    if body.role.Some? {
      OnlyAdminRemains(u.role, body.role.value);
    }
  }

  /** With "host" and "guest" ruled out, the only role a name can parse to is admin. */
  lemma OnlyAdminRemains(r: Role, name: string)
    requires RoleName(r) == name && name != "host" && name != "guest"
    ensures r == Admin
  {
  }

  /** `getAllUsers`: every stored user, once each, without passwords; the order is the store's. */
  method GetAllUsers(store: Store) returns (r: Response)
    ensures r.status == 200 && r.message.None? && r.payload.UserList?
    ensures |r.payload.users| == |store|
    ensures forall id | id in store :: View(id, store[id]) in r.payload.users
    ensures forall i | 0 <= i < |r.payload.users| ::
              r.payload.users[i].id in store && r.payload.users[i] == View(r.payload.users[i].id, store[r.payload.users[i].id])
    ensures forall i, j | 0 <= i < j < |r.payload.users| :: r.payload.users[i].id != r.payload.users[j].id
  {
    var users: seq<PublicUser> := [];
    var remaining := store.Keys;
    while remaining != {}
      invariant remaining <= store.Keys
      invariant |users| + |remaining| == |store|
      invariant forall id | id in store.Keys - remaining :: View(id, store[id]) in users
      invariant forall i | 0 <= i < |users| ::
                  users[i].id in store && users[i].id !in remaining && users[i] == View(users[i].id, store[users[i].id])
      invariant forall i, j | 0 <= i < j < |users| :: users[i].id != users[j].id
      decreases |remaining|
    {
      var id :| id in remaining;
      users := users + [View(id, store[id])];
      remaining := remaining - {id};
    }
    r := Response(200, None, UserList(users));
  }

  /** `getUserById`: a malformed id is a CastError caught as 500; a missing record is 404. */
  function GetUserById(store: Store, rawId: string): (r: Response)
    ensures r.status in {200, 404, 500}
    ensures r.status == 500 <==> CastId(rawId).None?
    ensures r.status == 500 ==> r == Fail(FetchErrorMessage, CastFailed(rawId))
    ensures r.status == 404 <==> CastId(rawId).Some? && CastId(rawId).value !in store
    ensures r.status == 404 ==> r.message == Some(NotFoundMessage)
    ensures r.status == 200 ==>
              && CastId(rawId).value in store
              && r == Response(200, None, OneUser(View(CastId(rawId).value, store[CastId(rawId).value])))
  {
    match CastId(rawId)
    case None => Fail(FetchErrorMessage, CastFailed(rawId))
    case Some(id) =>
      if id !in store then Response(404, Some(NotFoundMessage), NoPayload)
      else Response(200, None, OneUser(View(id, store[id])))
  }

  /**
   * The effect of `findByIdAndUpdate(id, body)` on one record: each path the
   * body sets is replaced (a nested sub-profile as a whole); the password is
   * written as given, since no save hook runs; `updatedAt` becomes now.
   */
  function ApplyPatch(u: User, c: UserInput, now: Instant): (r: User)
    requires PatchConforms(c)
    ensures r.name == (if c.name.Some? then c.name.value else u.name)
    ensures r.email == (if c.email.Some? then c.email.value else u.email)
    ensures r.password == (if c.password.Some? then Plain(c.password.value) else u.password)
    ensures c.role.Some? ==> RoleName(r.role) == c.role.value
    ensures c.role.None? ==> r.role == u.role
    ensures r.phone == (if c.phone.Some? then c.phone else u.phone)
    ensures r.profilePicture == (if c.profilePicture.Some? then c.profilePicture else u.profilePicture)
    ensures r.isVerified == c.isVerified.GetOr(u.isVerified)
    ensures r.hostDetails == (if c.hostDetails.Some? then HostFromInput(c.hostDetails) else u.hostDetails)
    ensures r.guestDetails == (if c.guestDetails.Some? then GuestFromInput(c.guestDetails) else u.guestDetails)
    ensures r.createdAt == u.createdAt && r.updatedAt == now
  {
    var role := if c.role.Some? then ParseRole(c.role.value) else None;
    var password := if c.password.Some? then Plain(c.password.value) else u.password;
    var host := if c.hostDetails.Some? then HostFromInput(c.hostDetails) else u.hostDetails;
    var guest := if c.guestDetails.Some? then GuestFromInput(c.guestDetails) else u.guestDetails;
    u.(name := c.name.GetOr(u.name), email := c.email.GetOr(u.email), password := password,
       role := role.GetOr(u.role), phone := if c.phone.Some? then c.phone else u.phone,
       profilePicture := if c.profilePicture.Some? then c.profilePicture else u.profilePicture,
       isVerified := c.isVerified.GetOr(u.isVerified), hostDetails := host, guestDetails := guest,
       updatedAt := now)
  }

  /** An update body that sets no path. */
  const EmptyPatch := UserInput(None, None, None, None, None, None, None, None, None)

  /** An update that sets nothing still bumps `updatedAt` and changes nothing else. */
  lemma EmptyPatchTouchesOnlyTimestamp(u: User, now: Instant)
    ensures ApplyPatch(u, EmptyPatch, now) == u.(updatedAt := now)
  {
  }

  /**
   * `updateUser`: cast the id, run the update validators on the paths the body
   * sets, look the record up, write it under the email index, and answer with
   * the post-update record without its password.
   */
  function UpdateUser(store: Store, rawId: string, body: UserInput, now: Instant): (o: Outcome)
    ensures o.response.status in {200, 404, 500}
    ensures o.response.status != 200 ==> o.store == store
    ensures o.response.status == 500 ==> o.response.message == Some(UpdateErrorMessage)
    ensures CastId(rawId).None? ==> o.response == Fail(UpdateErrorMessage, CastFailed(rawId))
    ensures o.response.status == 404 <==>
              CastId(rawId).Some? && PatchConforms(ApplySetters(body)) && CastId(rawId).value !in store
    ensures o.response.status == 200 <==>
              && CastId(rawId).Some? && PatchConforms(ApplySetters(body)) && CastId(rawId).value in store
              && EmailFreeFor(store, CastId(rawId).value,
                              ApplyPatch(store[CastId(rawId).value], ApplySetters(body), now).email)
    ensures o.response.status == 200 ==>
              && CastId(rawId).Some? && CastId(rawId).value in store
              && PatchConforms(ApplySetters(body))
              && o.store == store[CastId(rawId).value := ApplyPatch(store[CastId(rawId).value], ApplySetters(body), now)]
              && o.response == Response(200, Some(UpdatedMessage), OneUser(View(CastId(rawId).value, o.store[CastId(rawId).value])))
  {
    match CastId(rawId)
    case None => Outcome(store, Fail(UpdateErrorMessage, CastFailed(rawId)))
    case Some(id) =>
      var c := ApplySetters(body);
      var vs := ValidateUpdate(c);
      if vs != [] then Outcome(store, Fail(UpdateErrorMessage, ValidationFailed(vs)))
      else if id !in store then Outcome(store, Response(404, Some(NotFoundMessage), NoPayload))
      else
        var u := ApplyPatch(store[id], c, now);
        match Replace(store, id, u)
        case Err(k) => Outcome(store, Fail(UpdateErrorMessage, DuplicateKey(k)))
        case Ok(s') => Outcome(s', Response(200, Some(UpdatedMessage), OneUser(View(id, u))))
  }

  /** An update changes only its target: every other record is left exactly as it was. */
  lemma UpdateTouchesOnlyTarget(store: Store, rawId: string, body: UserInput, now: Instant, k: Id)
    requires k in store && (CastId(rawId).None? || k != CastId(rawId).value)
    ensures k in UpdateUser(store, rawId, body, now).store
    ensures UpdateUser(store, rawId, body, now).store[k] == store[k]
    ensures UpdateUser(store, rawId, body, now).store.Keys == store.Keys
  {
  }

  /** An update that sets a password stores it as plain text, so comparePassword fails for every candidate. */
  lemma UpdatedPasswordIsNotHashed(store: Store, rawId: string, body: UserInput, now: Instant, q: string)
    requires body.password.Some?
    requires UpdateUser(store, rawId, body, now).response.status == 200
    ensures UpdateUser(store, rawId, body, now).store[CastId(rawId).value].password == Plain(body.password.value)
    ensures !ComparePassword(q, UpdateUser(store, rawId, body, now).store[CastId(rawId).value].password)
  {
  }

  /** An update that does not set a password keeps the stored hash byte-for-byte. */
  lemma UpdateWithoutPasswordKeepsHash(store: Store, rawId: string, body: UserInput, now: Instant)
    requires body.password.None?
    requires UpdateUser(store, rawId, body, now).response.status == 200
    ensures UpdateUser(store, rawId, body, now).store[CastId(rawId).value].password == store[CastId(rawId).value].password
  {
  }

  /** An update that would give a record another record's email is refused by the index with 500. */
  lemma UpdateToTakenEmailFails(store: Store, rawId: string, body: UserInput, now: Instant, other: Id)
    requires CastId(rawId).Some? && CastId(rawId).value in store
    requires other in store && other != CastId(rawId).value
    requires PatchConforms(ApplySetters(body))
    requires body.email.Some? && store[other].email == NormalizeEmail(body.email.value)
    ensures UpdateUser(store, rawId, body, now).response == Fail(UpdateErrorMessage, DuplicateKey(EmailKey))
  {
    var id := CastId(rawId).value;
    var c := ApplySetters(body);
    assert ValidateUpdate(c) == [];
    var u := ApplyPatch(store[id], c, now);
    assert u.email == store[other].email;
    assert Replace(store, id, u).Err?;
  }

  /** Patching a well-formed record with values that passed the update validators keeps it well-formed. */
  lemma PatchedRecordOk(u: User, body: UserInput, now: Instant)
    requires RecordOk(u) && PatchConforms(ApplySetters(body))
    ensures RecordOk(ApplyPatch(u, ApplySetters(body), now))
  {
    var c := ApplySetters(body);
    var r := ApplyPatch(u, c, now);
    PatchedFieldsOk(u, body, r);
  }

  /** Any record whose checked fields are the patched ones is well-formed. */
  lemma PatchedFieldsOk(u: User, body: UserInput, r: User)
    requires RecordOk(u) && PatchConforms(ApplySetters(body))
    requires r.name == (if body.name.Some? then TrimOpt(body.name).value else u.name)
    requires r.email == (if body.email.Some? then NormalizeEmail(body.email.value) else u.email)
    requires r.phone == (if body.phone.Some? then TrimOpt(body.phone) else u.phone)
    requires r.password == (if body.password.Some? then Plain(body.password.value) else u.password)
    ensures RecordOk(r)
  {
    PatchedNameOk(u.name, body.name);
    PatchedEmailOk(u.email, body.email);
    PatchedPhoneOk(u.phone, body.phone);
    PatchedPasswordOk(u.password, body.password);
    RecordOkByFields(r);
  }

  /** `RecordOk` field by field. */
  lemma RecordOkByFields(r: User)
    requires r.name != "" && Text.Trimmed(r.name)
    requires r.email != "" && NormalizeEmail(r.email) == r.email && EmailShape.IsValid(r.email)
    requires r.phone.Some? ==> Text.Trimmed(r.phone.value)
    requires StoredPasswordOk(r.password)
    ensures RecordOk(r)
  {
  }

  /** A patched name is still present and trimmed. */
  lemma PatchedNameOk(before: string, raw: Option<string>)
    requires before != "" && Text.Trimmed(before)
    requires TrimOpt(raw).Some? ==> NameOk(TrimOpt(raw))
    ensures var after := if raw.Some? then TrimOpt(raw).value else before;
            after != "" && Text.Trimmed(after)
  {
  }

  /** A patched email is still present, normalised and well-shaped. */
  lemma PatchedEmailOk(before: string, raw: Option<string>)
    requires before != "" && NormalizeEmail(before) == before && EmailShape.IsValid(before)
    requires raw.Some? ==> EmailOk(Some(NormalizeEmail(raw.value)))
    ensures var after := if raw.Some? then NormalizeEmail(raw.value) else before;
            after != "" && NormalizeEmail(after) == after && EmailShape.IsValid(after)
  {
    if raw.Some? {
      NormalizedEmailOk(raw.value);
    }
  }

  /** An email that passed the update validators is already in normal form. */
  lemma NormalizedEmailOk(e: string)
    requires EmailOk(Some(NormalizeEmail(e)))
    ensures var n := NormalizeEmail(e); n != "" && NormalizeEmail(n) == n && EmailShape.IsValid(n)
  {
    NormalizeEmailIdempotent(e);
  }

  /** A patched phone is still trimmed. */
  lemma PatchedPhoneOk(before: Option<string>, raw: Option<string>)
    requires before.Some? ==> Text.Trimmed(before.value)
    ensures var after := if raw.Some? then TrimOpt(raw) else before;
            after.Some? ==> Text.Trimmed(after.value)
  {
  }

  /** A patched password, stored unhashed, still meets `minlength`. */
  lemma PatchedPasswordOk(before: Password, v: Option<string>)
    requires StoredPasswordOk(before) && (v.Some? ==> PasswordOk(v))
    ensures StoredPasswordOk(if v.Some? then Plain(v.value) else before)
  {
  }

  /** Update keeps the store valid: validated values, normalised unique emails. */
  lemma UpdatePreservesValid(store: Store, rawId: string, body: UserInput, now: Instant)
    requires Valid(store)
    ensures Valid(UpdateUser(store, rawId, body, now).store)
  {
    var o := UpdateUser(store, rawId, body, now);
    if o.response.status == 200 {
      var id := CastId(rawId).value;
      var c := ApplySetters(body);
      var u := ApplyPatch(store[id], c, now);
      assert RecordOk(store[id]);
      PatchedRecordOk(store[id], body, now);
      assert Replace(store, id, u).Ok?;
      ReplacePreservesValid(store, id, u);
    }
  }

  /** A user registered under a canonical id can be fetched by it, with the name and email stored. */
  lemma RegisterThenFetch(store: Store, body: UserInput, newId: Id, now: Instant)
    requires |newId| == 24 && forall i | 0 <= i < 24 :: ('0' <= newId[i] <= '9') || ('a' <= newId[i] <= 'f')
    requires Register(store, body, newId, now).response.status == 201
    ensures var r := GetUserById(Register(store, body, newId, now).store, newId);
            && r.status == 200
            && r.payload.user.name == Text.Trim(body.name.value)
            && r.payload.user.email == NormalizeEmail(body.email.value)
  {
    CastCanonicalId(newId);
  }
}

=== FILE: user_schema.dfy ===
/**
 * The user schema (backend/model/user.js): field rules and defaults, the
 * string setters, the validator, the pre-save hashing hook, comparePassword,
 * and the password-free view that queries return.
 */
module UserSchema {
  import opened Common
  import Text
  import EmailShape

  /** The schema's `minlength` on `password`, in UTF-16 code units (JavaScript's `.length`). */
  const MinPasswordLength: nat := 6

  /** The `role` enum. */
  datatype Role = Guest | Host | Admin

  function RoleName(r: Role): string {
    match r
    case Guest => "guest"
    case Host => "host"
    case Admin => "admin"
  }

  /** The enum validator: a string is a role exactly when it names one. */
  function ParseRole(s: string): (r: Option<Role>)
    ensures r.Some? ==> RoleName(r.value) == s
    ensures r.None? ==> forall x: Role :: RoleName(x) != s
  {
    if s == "guest" then Some(Guest)
    else if s == "host" then Some(Host)
    else if s == "admin" then Some(Admin)
    else None
  }

  /**
   * A stored password. `Hashed` is bcrypt.hash seen as an abstract injective
   * function (salt and cost are not modelled); `Plain` is text stored as given.
   */
  datatype Password = Plain(text: string) | Hashed(input: Password)

  /** `comparePassword`: bcrypt.compare succeeds only against the hash of the candidate. */
  predicate ComparePassword(candidate: string, stored: Password) {
    stored == Hashed(Plain(candidate))
  }

  /** A property reference held in a wishlist (an ObjectId). */
  type PropertyRef = string

  /** The `hostDetails` block as the schema stores it. */
  datatype HostDetails = HostDetails(isHost: bool, hostSince: Option<Instant>, totalListings: int, averageRating: real)

  /** The `guestDetails` block as the schema stores it. */
  datatype GuestDetails = GuestDetails(totalBookings: int, wishlist: seq<PropertyRef>)

  /** A stored user record (its `_id` is the key of the store). */
  datatype User = User(
    name: string,
    email: string,
    password: Password,
    role: Role,
    phone: Option<string>,
    profilePicture: Option<string>,
    isVerified: bool,
    hostDetails: HostDetails,
    guestDetails: GuestDetails,
    createdAt: Instant,
    updatedAt: Instant)

  /** A user as every query returns it: `select: false` keeps the password out. */
  datatype PublicUser = PublicUser(
    id: string,
    name: string,
    email: string,
    role: Role,
    phone: Option<string>,
    profilePicture: Option<string>,
    isVerified: bool,
    hostDetails: HostDetails,
    guestDetails: GuestDetails,
    createdAt: Instant,
    updatedAt: Instant)

  /** A caller-supplied `hostDetails` object; `totalReviews` is not a schema path. */
  datatype HostInput = HostInput(
    isHost: Option<bool>,
    hostSince: Option<Instant>,
    totalListings: Option<int>,
    averageRating: Option<real>,
    totalReviews: Option<int>)

  /** A caller-supplied `guestDetails` object; `isGuest` is not a schema path. */
  datatype GuestInput = GuestInput(
    isGuest: Option<bool>,
    totalBookings: Option<int>,
    wishlist: Option<seq<PropertyRef>>)

  /** A request body, or the object the controller builds from one, keyed by schema path. */
  datatype UserInput = UserInput(
    name: Option<string>,
    email: Option<string>,
    password: Option<string>,
    role: Option<string>,
    phone: Option<string>,
    profilePicture: Option<string>,
    isVerified: Option<bool>,
    hostDetails: Option<HostInput>,
    guestDetails: Option<GuestInput>)

  const NoHostInput := HostInput(None, None, None, None, None)
  const NoGuestInput := GuestInput(None, None, None)

  /** The paths that carry validators. */
  datatype Path = NamePath | EmailPath | PasswordPath | RolePath

  /** One failed validator; a ValidationError carries one per failing path. */
  datatype Violation = Required(path: Path) | TooShort(path: Path) | NotInEnum(path: Path) | BadFormat(path: Path)

  /** The email setters, `trim` then `lowercase`. */
  function NormalizeEmail(s: string): (r: string)
    ensures Text.Trimmed(r)
    ensures forall i | 0 <= i < |r| :: !('A' <= r[i] <= 'Z')
    ensures |r| == |Text.Trim(s)|
    ensures Text.Trimmed(s) && (forall i | 0 <= i < |s| :: !('A' <= s[i] <= 'Z')) ==> r == s
  {
    Text.LowerKeepsTrimmed(Text.Trim(s));
    Text.LowerFixesLowercase(s);
    Text.Lower(Text.Trim(s))
  }

  /** Each character of a normalised email is the lower-cased character of the trimmed input. */
  lemma NormalizeEmailLowersTrim(s: string)
    ensures forall i | 0 <= i < |NormalizeEmail(s)| :: NormalizeEmail(s)[i] == Text.LowerChar(Text.Trim(s)[i])
  {
  }

  /** Normalising a stored email again changes nothing. */
  lemma NormalizeEmailIdempotent(s: string)
    ensures NormalizeEmail(NormalizeEmail(s)) == NormalizeEmail(s)
  {
    var t := Text.Trim(s);
    Text.LowerKeepsTrimmed(t);
    Text.LowerIdempotent(t);
  }

  /** The `trim` setter on an optional path: applied when the path is present. */
  function TrimOpt(s: Option<string>): Option<string> {
    if s.Some? then Some(Text.Trim(s.value)) else None
  }

  /** Casting a body onto the schema runs the setters: `name` and `phone` trimmed, `email` normalised. */
  function ApplySetters(b: UserInput): (c: UserInput)
    ensures c.name == TrimOpt(b.name) && c.phone == TrimOpt(b.phone)
    ensures c.email.Some? <==> b.email.Some?
    ensures b.email.Some? ==> c.email.value == NormalizeEmail(b.email.value)
    ensures c.password == b.password && c.role == b.role && c.profilePicture == b.profilePicture
    ensures c.isVerified == b.isVerified && c.hostDetails == b.hostDetails && c.guestDetails == b.guestDetails
  {
    b.(name := TrimOpt(b.name),
       email := if b.email.Some? then Some(NormalizeEmail(b.email.value)) else None,
       phone := TrimOpt(b.phone))
  }

  /** The rules of one path, given its (already set) value. */
  predicate NameOk(v: Option<string>) { v.Some? && v.value != "" }
  predicate EmailOk(v: Option<string>) { v.Some? && v.value != "" && EmailShape.IsValid(v.value) }
  predicate PasswordOk(v: Option<string>) { v.Some? && v.value != "" && Text.Utf16Length(v.value) >= MinPasswordLength }
  predicate RoleOk(v: Option<string>) { v.None? || ParseRole(v.value).Some? }

  /** A cast body satisfies every schema rule (the reference the validator is checked against). */
  predicate Conforms(c: UserInput) {
    NameOk(c.name) && EmailOk(c.email) && PasswordOk(c.password) && RoleOk(c.role)
  }

  /** An update's present paths satisfy their rules; absent paths are not validated. */
  predicate PatchConforms(c: UserInput) {
    && (c.name.Some? ==> NameOk(c.name))
    && (c.email.Some? ==> EmailOk(c.email))
    && (c.password.Some? ==> PasswordOk(c.password))
    && RoleOk(c.role)
  }

  function CheckName(v: Option<string>): seq<Violation> {
    if NameOk(v) then [] else [Required(NamePath)]
  }

  function CheckEmail(v: Option<string>): seq<Violation> {
    if v.None? || v.value == "" then [Required(EmailPath)]
    else if !EmailShape.IsValid(v.value) then [BadFormat(EmailPath)]
    else []
  }

  function CheckPassword(v: Option<string>): seq<Violation> {
    if v.None? || v.value == "" then [Required(PasswordPath)]
    else if Text.Utf16Length(v.value) < MinPasswordLength then [TooShort(PasswordPath)]
    else []
  }

  function CheckRole(v: Option<string>): seq<Violation> {
    if RoleOk(v) then [] else [NotInEnum(RolePath)]
  }

  /** `document.validate()`: one violation per failing path, in schema order. */
  function Validate(c: UserInput): (vs: seq<Violation>)
    ensures vs == [] <==> Conforms(c)
    ensures c.name.None? ==> Required(NamePath) in vs
    ensures c.email.None? ==> Required(EmailPath) in vs
    ensures c.password.None? ==> Required(PasswordPath) in vs
    ensures c.password.Some? && 0 < Text.Utf16Length(c.password.value) < MinPasswordLength ==> TooShort(PasswordPath) in vs
    ensures c.email.Some? && c.email.value != "" && !EmailShape.IsValid(c.email.value) ==> BadFormat(EmailPath) in vs
    ensures c.role.Some? && ParseRole(c.role.value).None? ==> NotInEnum(RolePath) in vs
    ensures |vs| <= 4
  {
    CheckName(c.name) + CheckEmail(c.email) + CheckPassword(c.password) + CheckRole(c.role)
  }

  /** The update validators (`runValidators: true`): only the paths the update sets. */
  function ValidateUpdate(c: UserInput): (vs: seq<Violation>)
    ensures vs == [] <==> PatchConforms(c)
    ensures c.password.Some? && 0 < Text.Utf16Length(c.password.value) < MinPasswordLength ==> TooShort(PasswordPath) in vs
    ensures c.role.Some? && ParseRole(c.role.value).None? ==> NotInEnum(RolePath) in vs
    ensures c.name.None? && c.email.None? && c.password.None? && c.role.None? ==> vs == []
  {
    (if c.name.Some? then CheckName(c.name) else [])
    + (if c.email.Some? then CheckEmail(c.email) else [])
    + (if c.password.Some? then CheckPassword(c.password) else [])
    + CheckRole(c.role)
  }

  /** A `hostDetails` object stored under the schema: unknown keys dropped, defaults for absent ones. */
  function HostFromInput(h: Option<HostInput>): (d: HostDetails)
    ensures d.isHost == (h.Some? && h.value.isHost == Some(true))
    ensures d.totalListings == (if h.Some? then h.value.totalListings.GetOr(0) else 0)
    ensures d.averageRating == (if h.Some? then h.value.averageRating.GetOr(0.0) else 0.0)
    ensures d.hostSince == (if h.Some? then h.value.hostSince else None)
  {
    var i := h.GetOr(NoHostInput);
    HostDetails(i.isHost.GetOr(false), i.hostSince, i.totalListings.GetOr(0), i.averageRating.GetOr(0.0))
  }

  /** A `guestDetails` object stored under the schema: `isGuest` dropped, defaults for absent keys. */
  function GuestFromInput(g: Option<GuestInput>): (d: GuestDetails)
    ensures d.totalBookings == (if g.Some? then g.value.totalBookings.GetOr(0) else 0)
    ensures d.wishlist == (if g.Some? then g.value.wishlist.GetOr([]) else [])
  {
    var i := g.GetOr(NoGuestInput);
    GuestDetails(i.totalBookings.GetOr(0), i.wishlist.GetOr([]))
  }

  /** The record `new User(data)` builds from a conforming cast body; the password is still plain. */
  function NewUser(c: UserInput, now: Instant): (u: User)
    requires Conforms(c)
    ensures u.name == c.name.value && u.email == c.email.value && u.password == Plain(c.password.value)
    ensures c.role.None? ==> u.role == Guest
    ensures c.role.Some? ==> RoleName(u.role) == c.role.value
    ensures u.isVerified == (c.isVerified == Some(true))
    ensures u.phone == c.phone && u.profilePicture == c.profilePicture
    ensures u.hostDetails == HostFromInput(c.hostDetails) && u.guestDetails == GuestFromInput(c.guestDetails)
    ensures u.createdAt == now && u.updatedAt == now
  {
    User(
      name := c.name.value,
      email := c.email.value,
      password := Plain(c.password.value),
      role := if c.role.None? then Guest else ParseRole(c.role.value).value,
      phone := c.phone,
      profilePicture := c.profilePicture,
      isVerified := c.isVerified.GetOr(false),
      hostDetails := HostFromInput(c.hostDetails),
      guestDetails := GuestFromInput(c.guestDetails),
      createdAt := now,
      updatedAt := now)
  }

  /** A document in memory: its record and whether `password` was modified since it was last saved. */
  datatype Doc = Doc(user: User, passwordModified: bool)

  /** The pre('save') hook: hash the password when it was modified, otherwise leave it alone. */
  function PreSave(d: Doc): (r: Doc)
    ensures r.passwordModified == d.passwordModified
    ensures r.user.(password := d.user.password) == d.user
    ensures r.user.password == (if d.passwordModified then Hashed(d.user.password) else d.user.password)
  {
    if !d.passwordModified then d
    else d.(user := d.user.(password := Hashed(d.user.password)))
  }

  /** `save()`: the hook runs, then the document is clean (nothing counts as modified). */
  function Save(d: Doc): (r: Doc)
    ensures !r.passwordModified
    ensures r.user.(password := d.user.password) == d.user
  {
    PreSave(d).(passwordModified := false)
  }

  /** A save that leaves the password untouched stores it byte-for-byte. */
  lemma SaveUnmodifiedKeepsPassword(d: Doc)
    requires !d.passwordModified
    ensures Save(d).user == d.user
  {
  }

  /** Saving a saved document again does not hash twice. */
  lemma NoDoubleHashing(d: Doc)
    ensures Save(Save(d)) == Save(d)
  {
  }

  /** A password saved from plaintext `p` compares equal to `p` and to nothing else. */
  lemma ComparePasswordAfterSave(d: Doc, p: string, q: string)
    requires d.passwordModified && d.user.password == Plain(p)
    ensures ComparePassword(q, Save(d).user.password) <==> q == p
  {
  }

  /** A password stored as plain text never compares equal to any candidate. */
  lemma PlainNeverCompares(t: string, q: string)
    ensures !ComparePassword(q, Plain(t))
  {
  }

  /** The query projection `-password`. */
  function View(id: string, u: User): (p: PublicUser)
    ensures p.id == id && p.name == u.name && p.email == u.email && p.role == u.role
  {
    PublicUser(id, u.name, u.email, u.role, u.phone, u.profilePicture, u.isVerified,
               u.hostDetails, u.guestDetails, u.createdAt, u.updatedAt)
  }

  /** Restores a record from its view and a password: the inverse of `View`. */
  function WithPassword(p: PublicUser, pw: Password): User {
    User(p.name, p.email, pw, p.role, p.phone, p.profilePicture, p.isVerified,
         p.hostDetails, p.guestDetails, p.createdAt, p.updatedAt)
  }

  /** The view forgets exactly the password: nothing else is lost and the password cannot leak. */
  lemma ViewForgetsOnlyPassword(id: string, u: User, pw: Password)
    ensures WithPassword(View(id, u), u.password) == u
    ensures View(id, u.(password := pw)) == View(id, u)
  {
  }

  /** A record meets the schema's rules as stored: set values, a valid email and a checked password. */
  predicate RecordOk(u: User) {
    && u.name != "" && Text.Trimmed(u.name)
    && u.email != "" && NormalizeEmail(u.email) == u.email && EmailShape.IsValid(u.email)
    && (u.phone.Some? ==> Text.Trimmed(u.phone.value))
    && StoredPasswordOk(u.password)
  }

  /** The stored password passed `minlength` as plain text, hashed (register) or not (update). */
  predicate StoredPasswordOk(p: Password) {
    match p
    case Plain(t) => Text.Utf16Length(t) >= MinPasswordLength
    case Hashed(Plain(t)) => Text.Utf16Length(t) >= MinPasswordLength
    case Hashed(Hashed(_)) => false
  }

  /** What `new User(data).save()` stores from a conforming cast body meets the schema's rules. */
  lemma SavedNewUserOk(b: UserInput, now: Instant)
    requires Conforms(ApplySetters(b))
    ensures RecordOk(Save(Doc(NewUser(ApplySetters(b), now), true)).user)
  {
    var c := ApplySetters(b);
    NormalizeEmailIdempotent(b.email.value);
  }

  /** A record created with no sub-profile objects gets the schema defaults. */
  lemma NewUserDefaults(c: UserInput, now: Instant)
    requires Conforms(c) && c.isVerified.None? && c.hostDetails.None? && c.guestDetails.None?
    ensures NewUser(c, now).isVerified == false
    ensures NewUser(c, now).hostDetails == HostDetails(false, None, 0, 0.0)
    ensures NewUser(c, now).guestDetails == GuestDetails(0, [])
  {
  }

  /**
   * An illustration of `minlength` counting UTF-16 code units: three astral-plane
   * characters are six units and pass, although they are only three code points.
   */
  lemma AstralPasswordMeetsMinLength()
    ensures |"\U{1F600}\U{1F600}\U{1F600}"| < MinPasswordLength
    ensures CheckPassword(Some("\U{1F600}\U{1F600}\U{1F600}")) == []
  {
    var p := "\U{1F600}\U{1F600}\U{1F600}";
    assert p[1..][1..][1..] == [];
    assert Text.Utf16Length(p) == 6;
  }
}

=== FILE: user_store.dfy ===
/**
 * The users collection as a map from `_id` to record, with the two unique
 * indexes MongoDB enforces on writes (`_id` and `email`) and ObjectId casting.
 */
module UserStore {
  import opened Common
  import opened UserSchema
  import Text

  /** A canonical ObjectId: 24 lower-case hexadecimal digits. */
  type Id = string

  type Store = map<Id, User>

  /** The `unique: true` index on `email`: no two records share an email. */
  ghost predicate UniqueEmails(s: Store) {
    forall a, b | a in s && b in s && a != b :: s[a].email != s[b].email
  }

  /** Every record meets the schema's rules and the email index holds. */
  ghost predicate Valid(s: Store) {
    UniqueEmails(s) && AllRecordsOk(s)
  }

  ghost predicate AllRecordsOk(s: Store) {
    forall id | id in s :: RecordOk(s[id])
  }

  /** `findOne({ email: e })` finds a record. */
  predicate HasEmail(s: Store, e: string) {
    exists id | id in s :: s[id].email == e
  }

  /** Which unique index a write violated. */
  datatype IndexKey = IdKey | EmailKey

  /** An insert: refused by the `_id` index, then by the `email` index. */
  function Insert(s: Store, id: Id, u: User): (r: Result<Store, IndexKey>)
    ensures r.Ok? <==> id !in s && !HasEmail(s, u.email)
    ensures r.Ok? ==> r.value == s[id := u]
    ensures r.Err? ==> (r.error == IdKey <==> id in s)
  {
    if id in s then Err(IdKey)
    else if HasEmail(s, u.email) then Err(EmailKey)
    else Ok(s[id := u])
  }

  /** No record other than `id` holds `email`. */
  predicate EmailFreeFor(s: Store, id: Id, email: string) {
    forall k | k in s && k != id :: s[k].email != email
  }

  /** An in-place update of record `id`: refused when another record holds the new email. */
  function Replace(s: Store, id: Id, u: User): (r: Result<Store, IndexKey>)
    requires id in s
    ensures r.Ok? <==> EmailFreeFor(s, id, u.email)
    ensures r.Ok? ==> r.value == s[id := u]
    ensures r.Err? ==> r.error == EmailKey
  {
    if exists k | k in s && k != id :: s[k].email == u.email then Err(EmailKey)
    else Ok(s[id := u])
  }

  /** Writing a well-formed record at `id` keeps every record of the store well-formed. */
  lemma PutKeepsRecordsOk(s: Store, id: Id, u: User)
    requires AllRecordsOk(s) && RecordOk(u)
    ensures AllRecordsOk(s[id := u])
  {
    var t := s[id := u];
    forall k | k in t
      ensures RecordOk(t[k])
    {
      if k != id {
        assert t[k] == s[k];
      }
    }
  }

  /** Writing at `id` an email no other record holds keeps the email index unique. */
  lemma PutKeepsUniqueEmails(s: Store, id: Id, u: User)
    requires UniqueEmails(s)
    requires EmailFreeFor(s, id, u.email)
    ensures UniqueEmails(s[id := u])
  {
    var t := s[id := u];
    forall a, b | a in t && b in t && a != b
      ensures t[a].email != t[b].email
    {
      if a == id {
        assert s[b].email != u.email;
      } else if b == id {
        assert s[a].email != u.email;
      } else {
        assert t[a] == s[a] && t[b] == s[b];
      }
    }
  }

  /** An insert the indexes accept, of a well-formed record, keeps the store valid and adds one key. */
  lemma InsertPreservesValid(s: Store, id: Id, u: User)
    requires Valid(s) && RecordOk(u) && id !in s && !HasEmail(s, u.email)
    ensures Valid(s[id := u])
    ensures |s[id := u]| == |s| + 1
  {
    PutKeepsUniqueEmails(s, id, u);
    PutKeepsRecordsOk(s, id, u);
  }

  /** A replacement the email index accepts, of a well-formed record, keeps the store valid. */
  lemma ReplacePreservesValid(s: Store, id: Id, u: User)
    requires Valid(s) && id in s && RecordOk(u)
    requires EmailFreeFor(s, id, u.email)
    ensures Valid(s[id := u])
  {
    PutKeepsUniqueEmails(s, id, u);
    PutKeepsRecordsOk(s, id, u);
  }

  predicate IsHexDigit(c: char) {
    ('0' <= c <= '9') || ('a' <= c <= 'f') || ('A' <= c <= 'F')
  }

  /** Casting a route parameter to an ObjectId: 24 hex digits, case-insensitive, or a CastError. */
  function CastId(raw: string): (r: Option<Id>)
    ensures r.Some? <==> |raw| == 24 && forall i | 0 <= i < 24 :: IsHexDigit(raw[i])
    ensures r.Some? ==> |r.value| == 24 && forall i | 0 <= i < 24 :: r.value[i] == Text.LowerChar(raw[i])
  {
    if |raw| == 24 && forall i | 0 <= i < 24 :: IsHexDigit(raw[i]) then Some(Text.Lower(raw)) else None
  }

  /** A canonical id casts to itself, so an id returned by a create can be fetched back. */
  lemma CastCanonicalId(id: Id)
    requires |id| == 24 && forall i | 0 <= i < 24 :: ('0' <= id[i] <= '9') || ('a' <= id[i] <= 'f')
    ensures CastId(id) == Some(id)
  {
    var r := CastId(id).value;
    forall i | 0 <= i < 24
      ensures r[i] == id[i]
    {
    }
    assert r == id;
  }
}
